=== FILE: README.md ===
# grounding-data question formatters and chat conversion, in Dafny

This project models the part of grounding-data that turns box annotations
of an image into multiple-choice grounding questions, and then turns those
questions into lettered chat examples.

A record's annotations `objs` are an ordered mapping from a label to its
list of boxes. Each box is `[x1, y1, x2, y2]`, normalised to the unit
square. There are three question formatters:

- **detect_single** (`SingleBox`). The answer is the only box of a label
  that has exactly one box. The distractors are sampled from every other
  box of the record. If there are fewer than eight of those, jittered
  copies of the answer box fill the pool up to eight.
- **detect_multi** (`MultiBox`). The answer is the whole box list of one
  label, preferably a label with several boxes. The distractors are other
  labels' box lists and mutations of the answer list. They all have the
  answer's length, and they are deduplicated by the exact, ordered list of
  boxes.
- **detect_multi_object** (`MultiObject`). The answer is a list of
  `(label, box)` entries over two to four labels that each have several
  boxes. The distractors come from mutating the entries (perturb, drop,
  swap names, add) or from a fallback that re-jitters one box. They are
  deduplicated by an order-independent signature of the rounded entries.

`random_bbox` (`Geometry.RandomBox`) is the jitter every formatter uses.
It perturbs each coordinate by at most 0.1, or draws a fresh box, and
then clamps the result to the unit square and puts both corners in order.

The conversion (`Convert`) takes a record with `choices`, whose first
choice is the correct one. It shuffles the choices and letters them A, B,
C, … by position. It renders the prompt with one of three templates and
the instructions of one of five response styles. The expected reply is
the letter the correct choice received, written in that style.

Randomness is made explicit: every call of Python's `random` becomes a
parameter of the operation. Examples are the index sample of
`random.sample`, the permutation of `random.shuffle`, the branch and
uniform draws of `random_bbox`, the coin of `random.random() < 0.1`, and
the style and template chosen by `rng.choice`. A `Valid…Draws` predicate
states that the draws are ones the random module could produce. Python
exceptions become `Failure` values:

- `EmptyChoice`: `random.choice` on an empty list.
- `EmptyRange`: `randrange(0)` and `random.sample` of a non-empty range
  from an empty one.
- `MissingChoices`, `TooFewChoices`, `TooManyChoices`, `NoCorrectAnswer`:
  the `ValueError`s of the conversion.

The formatters' top-up loops have no bound in the source. Here they
consume a finite sequence of draws, and `DrawsExhausted` reports that the
draws ran out.

Modules, one per file:

| module | file | role |
|---|---|---|
| `Results` | results.dfy | `Option` and `Result` |
| `Text` | text.dfy | `join`, `strip`/`rstrip`, `lower`, article stripping, substring facts |
| `Decimal` | decimal.dfy | `str(int)`, `int(str)`, `round(x, 3)`, the `:.3f` rendering |
| `Permutations` | permutations.dfy | samples and permutations of indices, what they keep |
| `Geometry` | geometry.dfy | boxes and `random_bbox` |
| `Annotations` | annotations.dfy | labels, boxes, records, questions, formatter errors |
| `Dedup` | dedup.dfy | the `add_candidate` / `used_signatures` pattern shared by two formatters |
| `SingleBox` | single_box.dfy | detect_single_formatter.py |
| `MultiBox` | multi_box.dfy | detect_multi_formatter.py |
| `MultiObject` | multi_object.dfy | detect_multi_object_formatter.py |
| `Convert` | convert.dfy | pipeline/convert.py |

## Model

| member | source | states |
|---|---|---|
| Geometry.Clamp | grounding/utils/bbox.py:19 | the result lies in [0, 1]; it is the coordinate itself inside [0, 1], 0 below and 1 above |
| Geometry.ClampAndOrder | grounding/utils/bbox.py:19-23 | the result is a valid box (in the unit square, corners ordered); a valid box is left unchanged; each coordinate pair is the clamped pair, possibly swapped |
| Geometry.RandomBox | grounding/utils/bbox.py:4-24 | every jittered box is valid; with a jitter draw inside ±0.1 and a valid original, every coordinate stays within 0.1 of the original's |
| Decimal.NatToString | grounding/format/detect_multi_formatter.py:49 | the count is written as a non-empty string of digits with no leading zero |
| Decimal.NatToStringRoundTrip | grounding/format/detect_multi_formatter.py:49 | the digits of the written count denote the count |
| Decimal.ParseInt | grounding/pipeline/convert.py:211 | a string parses exactly when it is digits with at most one leading sign, to the signed number it denotes; anything else (empty, a lone sign, a non-digit) fails as `ValueError` |
| Decimal.ParseIntToString | grounding/pipeline/convert.py:211 | `int(str(i)) == i` for every integer |
| Decimal.Round3 | grounding/format/detect_multi_object_formatter.py:11-12 | the rounded value is within half a thousandth of the coordinate |
| Decimal.Fixed3 | grounding/format/detect_multi_object_formatter.py:27 | the rendering ends in a decimal point followed by exactly three digits |
| Decimal.Fixed3RoundTrip | grounding/format/detect_multi_object_formatter.py:27 | reading a `:.3f` rendering back gives the rounded value it was made from |
| Text.JoinContainsPart | grounding/pipeline/convert.py:97 | every part occurs in the joined string |
| Text.JoinAppend | grounding/format/detect_multi_object_formatter.py:28 | joining a concatenation is joining each half, with one separator between them |
| Text.LowerJoin | grounding/pipeline/convert.py:79 | joining the lowercased letters is lowercasing the joined letters |
| Text.RStrip | grounding/pipeline/convert.py:89 | the result is a prefix of the input, does not end in whitespace, and only whitespace was removed |
| Text.LStrip | grounding/pipeline/convert.py:190 | the result is a suffix of the input, does not start with whitespace, and only whitespace was removed |
| Text.StripThenRStrip | grounding/pipeline/convert.py:89 | a stripped question is not changed by the template's own `rstrip` |
| Text.StripFirstPrefix | grounding/format/detect_single_formatter.py:39-42 | the label is unchanged when no article matches; otherwise exactly the first matching article is removed |
| Permutations.Covers | grounding/pipeline/convert.py:51-61 | a shuffle gives every original index some position |
| Permutations.PositionOf | grounding/pipeline/convert.py:57-61 | the position holding an original index is unique |
| Permutations.PermutationKeepsMultiset | grounding/pipeline/convert.py:51-52 | a shuffled list holds the same elements, with multiplicity |
| Permutations.SampleWithinMultiset | grounding/format/detect_single_formatter.py:47 | sampling without replacement picks a sub-multiset of the population |
| Permutations.MapKeepsMultisetEquality | grounding/format/detect_multi_object_formatter.py:15-20 | mapping a function over two lists with the same elements gives lists with the same elements |
| Annotations.MultiGroups | grounding/format/detect_multi_object_formatter.py:44 | exactly the labels with more than one box are kept, and distinct labels stay distinct |
| Annotations.MultiGroupsInOrder | grounding/format/detect_multi_object_formatter.py:44 | the kept labels appear in record order: any two of them occur in the record in the same order |
| Annotations.MultiGroupsNonEmpty | grounding/format/detect_multi_formatter.py:34-37 | the multi-box list is empty exactly when no label has more than one box |
| Dedup.Start | grounding/format/detect_multi_formatter.py:51-52 | no distractor yet, and the target's signature is already used |
| Dedup.Add | grounding/format/detect_multi_formatter.py:54-60 | a candidate is appended exactly when it is admissible and its signature is unused; used signatures only grow; an admissible candidate's signature is used afterwards |
| Dedup.AddKeepsValid | grounding/format/detect_multi_object_formatter.py:69-75 | the used set stays the target's signature plus the accepted signatures, all pairwise different |
| Dedup.SampleDistinct | grounding/format/detect_multi_object_formatter.py:88 | distractors sampled at distinct positions differ in signature from each other and from the target |
| MultiObject.SignatureOrderInvariant | grounding/format/detect_multi_object_formatter.py:15-20 | entry lists with the same elements, in any order, have the same signature |
| MultiObject.ShuffleKeepsSignature | grounding/format/detect_multi_object_formatter.py:136 | the final shuffle of a mutation does not change its signature |
| MultiObject.FormatEntriesInOrder | grounding/format/detect_multi_object_formatter.py:23-28 | the rendering follows the entry order (it splits at ", " where the list splits) and contains every entry's own text |
| MultiObject.MultiGroupsAtLeastTwo | grounding/format/detect_multi_object_formatter.py:39-41 | at least two multi-box groups exist iff two distinct labels each have more than one box |
| MultiObject.CheckEligible | grounding/format/detect_multi_object_formatter.py:39-41 | eligible iff two labels each have more than one box |
| MultiObject.GatherCount | grounding/format/detect_multi_object_formatter.py:52-57 | with distinct names, each chosen label occurs in the target as often as boxes were sampled for it |
| MultiObject.GatherFromLabels | grounding/format/detect_multi_object_formatter.py:52-57 | every gathered entry is a box of one of the chosen labels, under that label's name |
| MultiObject.Target | grounding/format/detect_multi_object_formatter.py:44-57 | every target entry is a box of one of the chosen multi-box labels, under that label's name; each chosen label contributes `min(len(bboxes), 3)` entries; an eligible record names 2 to `min(4, n)` labels; a non-empty target has at least two entries |
| MultiObject.ExtraPool | grounding/format/detect_multi_object_formatter.py:61-64 | an entry is in the pool iff its box is one of its label's boxes |
| MultiObject.SwapNames | grounding/format/detect_multi_object_formatter.py:127-132 | the boxes stay in place, the two names are exchanged, and the multiset of names is unchanged |
| MultiObject.ApplyOps | grounding/format/detect_multi_object_formatter.py:115-135 | each operation changes the length by at most one and never empties a non-empty list; with a non-empty base no operation fails |
| MultiObject.MutateEntries | grounding/format/detect_multi_object_formatter.py:102-137 | a non-empty base gives a non-empty candidate whose length is within two of the base's |
| MultiObject.FallbackEntries | grounding/format/detect_multi_object_formatter.py:139-145 | fails exactly on an empty base; otherwise the same length and label multiset, and the entries are the base with one entry's box re-jittered |
| MultiObject.AddCandidateSound | grounding/format/detect_multi_object_formatter.py:69-75 | accepted candidates stay non-empty and signature-distinct from the target and from each other |
| MultiObject.RunMutations | grounding/format/detect_multi_object_formatter.py:77-81 | with a non-empty target the loop completes, never accepts more than three, and keeps the pool sound |
| MultiObject.RunFallbacks | grounding/format/detect_multi_object_formatter.py:83-85 | on success exactly three distractors are accepted and the pool stays sound; with a non-empty target it can only stop by running out of draws |
| MultiObject.Synthesize | grounding/format/detect_multi_object_formatter.py:43-88 | three non-empty distractors, each with a signature different from the target's and from each other's; an eligible record fails only by running out of draws |
| MultiObject.Format | grounding/format/detect_multi_object_formatter.py:43-100 | four choices, the rendered target first; the question lists the chosen labels; the record's fields are carried over |
| MultiObject.FormatDistractors | grounding/format/detect_multi_object_formatter.py:66-89 | the three other choices render, in order, three non-empty entry lists whose signatures differ from the target's and from each other |
| MultiBox.CheckEligible | grounding/format/detect_multi_formatter.py:28-31 | always eligible with a multi-box label, otherwise exactly the coin's outcome |
| MultiBox.Candidates | grounding/format/detect_multi_formatter.py:34-40 | when any label has several boxes, exactly those labels (every one of them and no other); otherwise every label; empty only for an empty record |
| MultiBox.KeepCandidate | grounding/format/detect_multi_formatter.py:69-73 | the candidate has the target's length; it keeps 1 to `len - 1` target boxes, from distinct positions, when the target has several; the added boxes are valid |
| MultiBox.AddCandidateSound | grounding/format/detect_multi_formatter.py:54-60 | accepted candidates keep the target's length and differ from the target and from each other |
| MultiBox.OfferOthers | grounding/format/detect_multi_formatter.py:62-65 | every other label's box list of the target's length ends up among the used signatures, and the pool stays sound |
| MultiBox.RunKeeps | grounding/format/detect_multi_formatter.py:67-75 | completes for a non-empty target, only adds to the pool, and keeps it sound |
| MultiBox.RunTopUps | grounding/format/detect_multi_formatter.py:77-81 | on success at least eight distractors are accepted; it can only fail by running out of draws |
| MultiBox.Search | grounding/format/detect_multi_formatter.py:33-81 | an empty record fails as `random.choice` does; on success the pool is sound, has at least eight distractors, and has offered every other same-length label; a well-formed record fails only by running out of draws |
| MultiBox.Synthesize | grounding/format/detect_multi_formatter.py:83-84 | three distractors, each of the target's length, different from the target and from each other |
| MultiBox.Format | grounding/format/detect_multi_formatter.py:33-96 | four choices, the target list first; the question names the article-stripped label and the target's box count; every other choice has the target's box count, differs from the target and from the other distractors |
| SingleBox.CheckEligible | grounding/format/detect_single_formatter.py:21-25 | eligible iff some label has exactly one box |
| SingleBox.SinglesSound | grounding/format/detect_single_formatter.py:28-32 | every single entry is a label of the record together with its only box |
| SingleBox.SinglesComplete | grounding/format/detect_single_formatter.py:28-32 | every label with exactly one box yields a single entry |
| SingleBox.PartitionMultiset | grounding/format/detect_single_formatter.py:28-34 | every box of the record lands once, either among the single entries or among the other boxes |
| SingleBox.PartitionDistinct | grounding/format/detect_single_formatter.py:28-32 | distinct labels give single entries with distinct names |
| SingleBox.OtherSinglesComplement | grounding/format/detect_single_formatter.py:36-38 | with distinct names, skipping the chosen name skips exactly the chosen entry |
| SingleBox.Pad | grounding/format/detect_single_formatter.py:45-46 | the pool keeps its boxes and grows to eight if it was shorter; each added box is valid and comes from one jitter of the answer box |
| SingleBox.PoolComplement | grounding/format/detect_single_formatter.py:28-38 | with distinct labels, the distractor pool plus the answer box is every box of the record exactly once |
| SingleBox.Format | grounding/format/detect_single_formatter.py:27-58 | succeeds iff some label has one box, and otherwise fails as `random.choice` does; the answer is a single-box label's box and comes first; the three distractors are drawn from the padded pool |
| Convert.OptionLettersOrdered | grounding/pipeline/convert.py:16 | 26 upper-case letters A to Z in alphabetical order |
| Convert.ShuffleChoices | grounding/pipeline/convert.py:45-66 | more than 26 choices fail and no choices fail; otherwise position `i` holds letter `i` and the shuffled choice, the texts are the choices with multiplicity, and the correct letter labels the first choice |
| Convert.AssignLetters | grounding/pipeline/convert.py:54-61 | position `i` gets letter `i` and the choice shuffled there; a correct letter is found iff some position received original index 0, and it is that position's letter |
| Convert.LetterInstruction | grounding/pipeline/convert.py:69-73 | with letters in order, the four-option shortcut equals the general join |
| Convert.InstructionContext | grounding/pipeline/convert.py:76-80 | the lowercase descriptor is the lowercase of the slash-joined letters |
| Convert.InstructionLines | grounding/pipeline/convert.py:136-170 | every style gives two or more lines, so the "no content" error cannot occur; the second line names the letters, in lowercase for the lowercase style |
| Convert.Answer | grounding/pipeline/convert.py:173-179 | the five answer forms of the response styles |
| Convert.AnswerRoundTrip | grounding/pipeline/convert.py:173-179 | each style's answer reads back to the letter it was built from |
| Convert.ListedLines | grounding/pipeline/convert.py:83-97 | the question, a blank line, the heading, one option per line in order, then a blank line and the instructions |
| Convert.InlineLines | grounding/pipeline/convert.py:100-113 | the question, a blank line and the instructions (when there are any), then a blank line, the "Options:" heading and all options together on the last line |
| Convert.Lines | grounding/pipeline/convert.py:83-130 | the first line is the right-stripped question; each template puts its blank lines, its heading ("Options:" or "Consider these candidates:"), the options and the instructions at fixed positions |
| Convert.RenderShowsOption | grounding/pipeline/convert.py:83-130 | every option, in its template's form, occurs in the prompt |
| Convert.RenderShowsInstruction | grounding/pipeline/convert.py:83-130 | every instruction line occurs in the prompt |
| Convert.ConvertId | grounding/pipeline/convert.py:205-213 | integer ids are kept; a string id becomes a number iff it parses, otherwise it is kept; a missing id becomes "None" |
| Convert.ConvertIdOfDecimal | grounding/pipeline/convert.py:205-213 | a string id that spells an integer becomes that integer |
| Convert.ImageList | grounding/pipeline/convert.py:39-42 | a missing field gives no images, a path becomes a one-element list, a list is kept, and a non-iterable value (`null`, a number, a boolean) fails |
| Convert.ConvertRecord | grounding/pipeline/convert.py:182-223 | each error case by its number of choices, then the `TypeError` of a non-iterable image field, and success otherwise; the answer parses to a letter whose option line shows the original first choice in the prompt; the image list, id and image count |

## Left out

- Reading and writing files, the command line, `_load_jsonl`, `_convert_file` and `main`. These are I/O.
- The dataset loader (`data.py`), the model wrappers, `generate.py`, the formatter base class and its registry (`formater.py`, `format.py`). They are not part of this model.
- The older `detect_single_format.py` is not part of this model. It is superseded by `detect_single_formatter.py`.
- The pydantic validation of `SITEData` is left out. A question is the plain `Question` datatype.
- The random generator itself and its probabilities are left out: the 0.9 jitter branch, the 0.1 eligibility coin, and uniform draws. Draws are parameters, and only their ranges are stated.
- Floating point is left out. Coordinates are reals, so jitter and clamping are exact.
- Geometry.RandomBox: the 0.1 bound assumes `random.uniform(-0.1, 0.1)` returns values in that interval. Float rounding is not modelled.
- Decimal.Round3: rounds ties up. Python's `round` works on the binary float and rounds exact ties to even.
- Decimal.Fixed3: `f"{-0.0:.3f}"` is `-0.000` in Python. A value that rounds to zero from below renders here as `0.000`.
- `json.dumps` of box lists and `str()` of a box list are not modelled. detect_multi and detect_single keep their choices as box data (`Question<seq<Box>>`, `Question<Box>`). The signature of detect_multi is the box list itself, which is what its tuple of tuples distinguishes.
- `_clone_entries` is not modelled. It only copies lists, and the model's values are immutable.
- MultiObject.MutateEntries: the `if not operations: break` branch is left out. `operations` always holds "perturb", so it cannot be taken.
- MultiBox.RunTopUps, MultiObject.RunFallbacks: the source loops are unbounded. Here each runs on a finite draw sequence and reports `DrawsExhausted` when it is used up. Each pass offers a freshly jittered candidate, so with real-valued jitter Python leaves these loops with probability one; an empty target never loops either. The multi-box formatter raises in its keep loop before the top-ups (`EmptyRange`). The multi-object formatter either raises, on `random.choice` of the empty target in a "perturb" after an "add" (`EmptyChoice`) or on `random.randrange(0)` in the first fallback (`EmptyRange`), or fills the pool through "add" mutations.
- MultiBox.Search: success is promised only for well-formed records (distinct labels, no empty box list). A label with no boxes can be chosen when no label has several. Python then raises on `random.sample(range(0), 1)`, which is modelled as `EmptyRange`.
- Decimal.ParseInt, Convert.ConvertId: Python's `int()` also accepts underscores between digits and non-ASCII digits; these are not modelled. Float and boolean ids are not modelled either; `True` is an `int` in Python.
- Text.RStrip, Text.LStrip, Text.Strip: only ASCII whitespace is stripped. Python also strips the separators `\x1c`–`\x1f`, `\x85` and Unicode spaces.
- Convert.ConvertRecord: only the record fields it reads are modelled. A `question` that is present but `null` (Python raises on `None.strip()`) is not modelled. Non-string choices are not modelled either, since JSON rendering is left out. A JSON object as `image` (which `list()` turns into its keys) is not modelled; `null`, numbers and booleans are, as `ImageNotIterable`.
- The "Instruction builder returned no content" error of `_convert_record` has no model value. `Convert.InstructionLines` proves that every style yields at least two lines.
- That each option occurs exactly once in the prompt is not stated. `Convert.Lines` and `Convert.RenderShowsOption` state where each option line is and that it occurs.

=== FILE: annotations.dfy ===
/** The annotation record the formatters read and the question record they
    produce. `objs` is the ordered label -> box-list mapping of a record;
    a Python dict keeps insertion order and has distinct keys, so it is a
    sequence of label groups with distinct labels. */
module Annotations {
  import opened Geometry

  datatype LabelBoxes = LabelBoxes(name: string, boxes: seq<Box>)

  type Objs = seq<LabelBoxes>

  predicate DistinctLabels(objs: Objs)
  {
    forall i, j :: 0 <= i < j < |objs| ==> objs[i].name != objs[j].name
  }

  /** The record invariant: distinct labels, and every label has one or more boxes. */
  predicate WellFormed(objs: Objs)
  {
    DistinctLabels(objs) && forall i :: 0 <= i < |objs| ==> |objs[i].boxes| > 0
  }

  /** A grounding record as the formatters receive it. */
  datatype Record = Record(sourceDataset: string, sourceId: string, image: string, objs: Objs)

  /** A rendered question; `choices[0]` is always the correct answer. */
  datatype Question<C> = Question(
    sourceDataset: string,
    sourceId: string,
    image: string,
    question: string,
    choices: seq<C>,
    questionType: string)

  /** Why a formatter run stops without a question. */
  datatype FormatError =
    | EmptyChoice     // `random.choice` on an empty sequence raises IndexError
    | EmptyRange      // `random.randrange(0)` raises ValueError
    | DrawsExhausted  // an unbounded top-up loop used up the draws it was given

  /** One `(label, bbox)` pair of a multi-category answer. */
  datatype Entry = Entry(name: string, box: Box)

  function LabelsOf(entries: seq<Entry>): (r: seq<string>)
    ensures |r| == |entries| && forall i :: 0 <= i < |entries| ==> r[i] == entries[i].name
  {
    seq(|entries|, i requires 0 <= i < |entries| => entries[i].name)
  }

  function BoxesOf(entries: seq<Entry>): (r: seq<Box>)
    ensures |r| == |entries| && forall i :: 0 <= i < |entries| ==> r[i] == entries[i].box
  {
    seq(|entries|, i requires 0 <= i < |entries| => entries[i].box)
  }

  lemma BoxesOfCons(e: Entry, entries: seq<Entry>)
    ensures BoxesOf([e] + entries) == [e.box] + BoxesOf(entries)
  {
  }

  lemma BoxesOfFirst(entries: seq<Entry>)
    requires |entries| > 0
    ensures BoxesOf(entries) == [entries[0].box] + BoxesOf(entries[1..])
  {
  }

  /** True iff `name` labels a group of `objs` and `box` is one of its boxes. */
  predicate HasBox(objs: Objs, name: string, box: Box)
  {
    exists g :: g in objs && g.name == name && box in g.boxes
  }

  /** Every box of the record, label by label, in order. */
  function AllBoxes(objs: Objs): (r: seq<Box>)
    ensures forall b :: b in r <==> exists g :: g in objs && b in g.boxes
  {
    if |objs| == 0 then [] else objs[0].boxes + AllBoxes(objs[1..])
  }

  /** The groups with more than one box, in record order
      (grounding/format/detect_multi_object_formatter.py:44). */
  function MultiGroups(objs: Objs): (r: Objs)
    ensures |r| <= |objs|
    ensures forall g :: g in r <==> g in objs && |g.boxes| > 1
    ensures DistinctLabels(objs) ==> DistinctLabels(r)
    ensures forall g :: g in r ==> exists i :: 0 <= i < |objs| && objs[i] == g
  {
    if |objs| == 0 then []
    else if |objs[0].boxes| > 1 then [objs[0]] + MultiGroups(objs[1..])
    else MultiGroups(objs[1..])
  }

  /** `a` occurs in `objs` at a position before one holding `b`. */
  ghost predicate Before(objs: Objs, a: LabelBoxes, b: LabelBoxes)
  {
    exists p, q :: 0 <= p < q < |objs| && objs[p] == a && objs[q] == b
  }

  /** Any two positions of `sub` hold groups found in that order in `objs`. */
  ghost predicate InOrder(sub: Objs, objs: Objs)
  {
    forall i, j :: 0 <= i < j < |sub| ==> Before(objs, sub[i], sub[j])
  }

  /** Putting a group in front of the whole record keeps the order. */
  lemma InOrderShift(x: LabelBoxes, sub: Objs, tail: Objs)
    requires InOrder(sub, tail)
    ensures InOrder(sub, [x] + tail)
  {
    var objs := [x] + tail;
    forall i, j | 0 <= i < j < |sub|
      ensures Before(objs, sub[i], sub[j])
    {
      var p, q :| 0 <= p < q < |tail| && tail[p] == sub[i] && tail[q] == sub[j];
      assert objs[p + 1] == tail[p] && objs[q + 1] == tail[q];
    }
  }

  /** Putting the same group in front of both keeps the order. */
  lemma InOrderCons(x: LabelBoxes, sub: Objs, tail: Objs)
    requires InOrder(sub, tail)
    requires forall g :: g in sub ==> g in tail
    ensures InOrder([x] + sub, [x] + tail)
  {
    var objs, r := [x] + tail, [x] + sub;
    forall i, j | 0 <= i < j < |r|
      ensures Before(objs, r[i], r[j])
    {
      assert r[j] == sub[j - 1];
      if i == 0 {
        assert sub[j - 1] in tail;
        var k :| 0 <= k < |tail| && tail[k] == sub[j - 1];
        assert objs[0] == r[0] && objs[k + 1] == tail[k];
      } else {
        assert r[i] == sub[i - 1];
        var p, q :| 0 <= p < q < |tail| && tail[p] == sub[i - 1] && tail[q] == sub[j - 1];
        assert objs[p + 1] == tail[p] && objs[q + 1] == tail[q];
      }
    }
  }

  /** The multi-box filter keeps the record order of the labels. */
  lemma {:induction false} MultiGroupsInOrder(objs: Objs)
    ensures InOrder(MultiGroups(objs), objs)
  {
    if |objs| > 0 {
      var tail := objs[1..];
      assert objs == [objs[0]] + tail;
      MultiGroupsInOrder(tail);
      if |objs[0].boxes| > 1 {
        InOrderCons(objs[0], MultiGroups(tail), tail);
      } else {
        InOrderShift(objs[0], MultiGroups(tail), tail);
      }
    }
  }

  predicate HasMultiGroup(objs: Objs)
  {
    exists i :: 0 <= i < |objs| && |objs[i].boxes| > 1
  }

  lemma MultiGroupsNonEmpty(objs: Objs)
    ensures |MultiGroups(objs)| > 0 <==> HasMultiGroup(objs)
  {
    if HasMultiGroup(objs) {
      var i :| 0 <= i < |objs| && |objs[i].boxes| > 1;
      assert objs[i] in MultiGroups(objs);
    }
    if |MultiGroups(objs)| > 0 {
      assert MultiGroups(objs)[0] in MultiGroups(objs);
    }
  }
}

=== FILE: convert.dfy ===
/** grounding/pipeline/convert.py: turns a formatted question record into a
    lettered multiple-choice chat example. The choices are shuffled, lettered
    A, B, C, ... by position, rendered by one of three templates with the
    instructions of one of five response styles, and the letter the correct
    choice (original index 0) received becomes the expected answer. */
module Convert {
  import opened Results
  import opened Text
  import opened Decimal
  import opened Permutations

  const OptionLetters: string := "ABCDEFGHIJKLMNOPQRSTUVWXYZ"

  predicate IsUpper(c: char)
  {
    'A' <= c <= 'Z'
  }

  /** The letters are 'A' to 'Z' in alphabetical order, hence all distinct. */
  lemma OptionLettersOrdered()
    ensures |OptionLetters| == 26
    ensures forall i :: 0 <= i < 26 ==> IsUpper(OptionLetters[i]) && OptionLetters[i] as int == 'A' as int + i
  {
  }

  datatype OptionPair = OptionPair(letter: char, text: string)

  datatype Shuffled = Shuffled(pairs: seq<OptionPair>, correct: char)

  /** The exceptions `_shuffle_choices` and `_convert_record` raise. */
  datatype ConvertError =
    | MissingChoices   // "Record is missing 'choices'"
    | TooFewChoices    // "Need at least two choices ..."
    | TooManyChoices   // "Too many choices to assign unique letters"
    | NoCorrectAnswer  // "Unable to determine correct answer after shuffling"
    | ImageNotIterable // the TypeError of `list()` on a non-iterable image field

  /** The reference arrangement: position `i` holds letter `i` and the
      choice the permutation sends there. */
  function Arranged(choices: seq<string>, perm: seq<nat>): (r: seq<OptionPair>)
    requires IsPermutation(perm, |choices|) && |choices| <= |OptionLetters|
    ensures |r| == |choices|
  {
    seq(|choices|, i requires 0 <= i < |choices| => OptionPair(OptionLetters[i], choices[perm[i]]))
  }

  function Texts(pairs: seq<OptionPair>): (r: seq<string>)
    ensures |r| == |pairs| && forall i :: 0 <= i < |pairs| ==> r[i] == pairs[i].text
  {
    seq(|pairs|, i requires 0 <= i < |pairs| => pairs[i].text)
  }

  /** `_shuffle_choices`: `perm` is the order `rng.shuffle` leaves
      `enumerate(choices)` in. */
  method ShuffleChoices(choices: seq<string>, perm: seq<nat>) returns (r: Result<Shuffled, ConvertError>)
    requires IsPermutation(perm, |choices|)
    ensures |choices| > |OptionLetters| ==> r == Failure(TooManyChoices)
    ensures |choices| == 0 ==> r == Failure(NoCorrectAnswer)
    ensures 0 < |choices| <= |OptionLetters| ==> r.Success?
    ensures r.Success? ==> 0 < |choices| <= |OptionLetters| && r.value.pairs == Arranged(choices, perm)
    ensures r.Success? ==> multiset(Texts(r.value.pairs)) == multiset(choices)
    ensures r.Success? ==> r.value.correct == OptionLetters[PositionOf(perm, |choices|, 0)]
    ensures r.Success? ==> exists k :: 0 <= k < |choices| && r.value.pairs[k] == OptionPair(r.value.correct, choices[0])
  {
    if |choices| > |OptionLetters| {
      return Failure(TooManyChoices);
    }
    var pairs, correct := AssignLetters(OptionLetters, choices, perm);
    if correct.None? {
      if |choices| > 0 {
        Covers(perm, |choices|, 0);
      }
      return Failure(NoCorrectAnswer);
    }
    var k := PositionOf(perm, |choices|, 0);
    assert pairs == Arranged(choices, perm);
    assert Texts(pairs) == Select(choices, perm);
    PermutationKeepsMultiset(choices, perm);
    return Success(Shuffled(pairs, correct.value));
  }

  /** The letter-assignment loop (grounding/pipeline/convert.py:54-61):
      position `i` gets letter `i`
      and the choice shuffled there, and
      a correct letter is found iff some position received original index 0. */
  method AssignLetters(letters: string, choices: seq<string>, perm: seq<nat>) returns (pairs: seq<OptionPair>, correct: Option<char>)
    requires |perm| == |choices| <= |letters|
    requires forall i :: 0 <= i < |perm| ==> perm[i] < |choices|
    ensures |pairs| == |choices|
    ensures forall i :: 0 <= i < |choices| ==> pairs[i] == OptionPair(letters[i], choices[perm[i]])
    ensures correct.None? <==> forall k :: 0 <= k < |perm| ==> perm[k] != 0
    ensures correct.Some? ==> exists k :: 0 <= k < |perm| && perm[k] == 0 && correct.value == letters[k]
  {
    pairs := [];
    correct := None;
    var position := 0;
    ghost var found: nat := 0;  // the position that received original index 0
    while position < |choices|
      invariant 0 <= position <= |choices|
      invariant |pairs| == position
      invariant forall i :: 0 <= i < position ==> pairs[i] == OptionPair(letters[i], choices[perm[i]])
      invariant correct.None? ==> forall k :: 0 <= k < position ==> perm[k] != 0
      invariant correct.Some? ==> found < position && perm[found] == 0 && correct.value == letters[found]
    {
      var originalIndex := perm[position];
      var letter := letters[position];
      pairs := pairs + [OptionPair(letter, choices[originalIndex])];
      if originalIndex == 0 {
        correct := Some(letter);
        found := position;
      }
      position := position + 1;
    }
  }

  function LetterStrings(pairs: seq<OptionPair>): (r: seq<string>)
    ensures |r| == |pairs| && forall i :: 0 <= i < |pairs| ==> r[i] == [pairs[i].letter]
  {
    seq(|pairs|, i requires 0 <= i < |pairs| => [pairs[i].letter])
  }

  /** The pairs carry the letters A, B, C, ... in order. */
  predicate LettersInOrder(pairs: seq<OptionPair>)
  {
    |pairs| <= |OptionLetters| && forall i :: 0 <= i < |pairs| ==> pairs[i].letter == OptionLetters[i]
  }

  /** `_letter_instruction`: the four-letter special case agrees with the
      general join whenever the letters are A, B, C, ... in order. */
  function LetterInstruction(pairs: seq<OptionPair>): (r: string)
    ensures LettersInOrder(pairs) ==> r == Join(LetterStrings(pairs), "/")
  {
    if |pairs| == 4 then
      assert LettersInOrder(pairs) ==> Join(LetterStrings(pairs), "/") == "A/B/C/D" by {
        if LettersInOrder(pairs) {
          var parts := LetterStrings(pairs);
          assert parts == ["A", "B", "C", "D"];
          assert parts[1..][1..][1..] == ["D"];
          assert Join(parts[1..][1..], "/") == "C/D";
        }
      }
      "A/B/C/D"
    else Join(LetterStrings(pairs), "/")
  }

  /** `InstructionContext`: the letters, the descriptor and its lowercase form. */
  datatype Context = Context(letters: seq<char>, descriptor: string, lowercaseDescriptor: string)

  /** `_instruction_context`: the lowercase descriptor, built by joining the
      lowercased letters, is the lowercase of the joined letters. */
  function InstructionContext(pairs: seq<OptionPair>): (r: Context)
    ensures |r.letters| == |pairs| && forall i :: 0 <= i < |pairs| ==> r.letters[i] == pairs[i].letter
    ensures LettersInOrder(pairs) ==> r.descriptor == Join(LetterStrings(pairs), "/")
    ensures r.lowercaseDescriptor == LowerString(Join(LetterStrings(pairs), "/"))
  {
    var letters := seq(|pairs|, i requires 0 <= i < |pairs| => pairs[i].letter);
    var lowered := seq(|pairs|, i requires 0 <= i < |pairs| => [Lower(pairs[i].letter)]);
    var parts := LetterStrings(pairs);
    LowerJoin(parts, "/");
    forall i | 0 <= i < |parts|
      ensures lowered[i] == LowerString(parts[i])
    {
      assert LowerString(parts[i])[0] == Lower(pairs[i].letter);
    }
    assert lowered == seq(|parts|, i requires 0 <= i < |parts| => LowerString(parts[i]));
    Context(letters, LetterInstruction(pairs), Join(lowered, "/"))
  }

  /** The five entries of `RESPONSE_STYLES`. */
  datatype Style = LetterOnly | AnswerPrefix | FinalAnswer | Lowercase | OptionPrefix

  /** The first instruction line of each style. */
  function Opening(style: Style): string
  {
    match style
    case LetterOnly => "Choose the best option from the list."
    case AnswerPrefix => "Select the most accurate choice."
    case FinalAnswer => "Pick the option that fits best."
    case Lowercase => "Determine the correct candidate."
    case OptionPrefix => "Choose the most suitable option."
  }

  /** The text of the second line before the letter descriptor. */
  function BeforeDescriptor(style: Style): string
  {
    match style
    case LetterOnly => "Respond with only the letter ("
    case AnswerPrefix => "Reply using the exact format `Answer: X` where X is one of "
    case FinalAnswer => "Return it as `Final answer: X` using one of "
    case Lowercase => "Respond in lowercase using only "
    case OptionPrefix => "Reply as `Option X` where X is one of "
  }

  function AfterDescriptor(style: Style): string
  {
    if style == LetterOnly then ")." else "."
  }

  /** The lines some styles add after the descriptor line. */
  function Closing(style: Style): seq<string>
  {
    match style
    case AnswerPrefix => ["No additional text is allowed."]
    case OptionPrefix => ["Do not include any other words."]
    case _ => []
  }

  /** `style.instruction_builder(ctx)`: never empty, so the "Instruction
      builder returned no content" error cannot occur; the second line
      names the letters the reply may use. */
  function InstructionLines(style: Style, ctx: Context): (r: seq<string>)
    ensures |r| >= 2
    ensures style != Lowercase ==> IsInfix(ctx.descriptor, r[1])
    ensures style == Lowercase ==> IsInfix(ctx.lowercaseDescriptor, r[1])
  {
    var desc := if style == Lowercase then ctx.lowercaseDescriptor else ctx.descriptor;
    InfixMiddle(BeforeDescriptor(style), desc, AfterDescriptor(style));
    [Opening(style), BeforeDescriptor(style) + desc + AfterDescriptor(style)] + Closing(style)
  }

  /** The text before the letter in each style's expected answer. */
  function AnswerLead(style: Style): string
  {
    match style
    case AnswerPrefix => "Answer: "
    case FinalAnswer => "Final answer: "
    case OptionPrefix => "Option "
    case _ => ""
  }

  /** `style.answer_builder(letter)`. */
  function Answer(style: Style, letter: char): (r: string)
    ensures style == LetterOnly ==> r == [letter]
    ensures style == AnswerPrefix ==> r == "Answer: " + [letter]
    ensures style == FinalAnswer ==> r == "Final answer: " + [letter]
    ensures style == Lowercase ==> r == [Lower(letter)]
    ensures style == OptionPrefix ==> r == "Option " + [letter]
  {
    AnswerLead(style) + [if style == Lowercase then Lower(letter) else letter]
  }

  /** The character after `lead` when `s` is `lead` and one more character. */
  function AfterLead(lead: string, s: string): (r: Option<char>)
    ensures r.Some? ==> s == lead + [r.value]
  {
    if |s| == |lead| + 1 && s[..|lead|] == lead then
      assert s == s[..|lead|] + [s[|lead|]];
      Some(s[|lead|])
    else None
  }

  lemma AfterLeadOf(lead: string, c: char)
    ensures AfterLead(lead, lead + [c]) == Some(c)
  {
    assert (lead + [c])[..|lead|] == lead;
  }

  /** Reads the letter back from an answer string in the given style. */
  function ParseAnswer(style: Style, s: string): (r: Option<char>)
    ensures r.Some? ==> IsUpper(r.value)
  {
    match AfterLead(AnswerLead(style), s)
    case None => None
    case Some(c) =>
      if style == Lowercase then
        if 'a' <= c <= 'z' then Some((c as int - 32) as char) else None
      else if IsUpper(c) then Some(c) else None
  }

  /** The answer determines the letter: every style's answer string parses
      back to the letter it was built from. */
  lemma AnswerRoundTrip(style: Style, letter: char)
    requires IsUpper(letter)
    ensures ParseAnswer(style, Answer(style, letter)) == Some(letter)
  {
    AfterLeadOf(AnswerLead(style), if style == Lowercase then Lower(letter) else letter);
  }

  /** The three entries of `TEMPLATES`. */
  datatype Template = Block | Inline | Steps

  /** How one option is written by each template. */
  function OptionLine(t: Template, p: OptionPair): string
  {
    match t
    case Block => [p.letter] + ". " + p.text
    case Inline => [p.letter] + ") " + p.text
    case Steps => "- Option " + [p.letter] + ": " + p.text
  }

  function OptionLines(t: Template, pairs: seq<OptionPair>): (r: seq<string>)
    ensures |r| == |pairs| && forall i :: 0 <= i < |pairs| ==> r[i] == OptionLine(t, pairs[i])
  {
    seq(|pairs|, i requires 0 <= i < |pairs| => OptionLine(t, pairs[i]))
  }

  /** A blank line and the instructions, when there are any. */
  function Trailer(instr: seq<string>): seq<string>
  {
    if |instr| > 0 then [""] + instr else []
  }

  /** `_template_block` and `_template_steps`: the question, a blank
      line, a heading, the options one per line in the shuffled order, then
      the instructions. */
  function ListedLines(question: string, heading: string, options: seq<string>, instr: seq<string>): (r: seq<string>)
    ensures |r| == 3 + |options| + |Trailer(instr)| && r[0] == question
    ensures r[1] == "" && r[2] == heading
    ensures forall i :: 0 <= i < |options| ==> r[3 + i] == options[i]
    ensures |instr| > 0 ==> r[3 + |options|] == ""
    ensures forall j :: 0 <= j < |instr| ==> 4 + |options| + j < |r| && r[4 + |options| + j] == instr[j]
  {
    var front := [question, "", heading] + options;
    var r := front + Trailer(instr);
    forall i | 0 <= i < |options|
      ensures r[3 + i] == options[i]
    {
      assert r[3 + i] == front[3 + i];
    }
    forall j | 0 <= j < |instr|
      ensures r[4 + |options| + j] == instr[j]
    {
      assert r[|front| + 1 + j] == Trailer(instr)[1 + j];
    }
    r
  }

  /** `_template_inline`: the question, the instructions, then all options
      on the last line. */
  function InlineLines(question: string, options: seq<string>, instr: seq<string>): (r: seq<string>)
    ensures |r| == 4 + |Trailer(instr)| && r[0] == question
    ensures |instr| > 0 ==> r[1] == ""
    ensures r[|r| - 3] == "" && r[|r| - 2] == "Options:"
    ensures r[|r| - 1] == Join(options, " ")
    ensures forall j :: 0 <= j < |instr| ==> 2 + j < |r| && r[2 + j] == instr[j]
  {
    var r := [question] + Trailer(instr) + ["", "Options:", Join(options, " ")];
    forall j | 0 <= j < |instr|
      ensures r[2 + j] == instr[j]
    {
      assert r[2 + j] == Trailer(instr)[1 + j];
    }
    r
  }

  /** The lines the three templates join with newlines. */
  function Lines(t: Template, question: string, pairs: seq<OptionPair>, instr: seq<string>): (r: seq<string>)
    ensures |r| > 0 && r[0] == RStrip(question)
    ensures t != Inline ==> forall i :: 0 <= i < |pairs| ==> 3 + i < |r| && r[3 + i] == OptionLine(t, pairs[i])
    ensures t == Inline ==> r[|r| - 1] == Join(OptionLines(t, pairs), " ")
    ensures t != Inline ==> forall j :: 0 <= j < |instr| ==> 4 + |pairs| + j < |r| && r[4 + |pairs| + j] == instr[j]
    ensures t == Inline ==> forall j :: 0 <= j < |instr| ==> 2 + j < |r| && r[2 + j] == instr[j]
    ensures t == Block ==> |r| >= 3 && r[1] == "" && r[2] == "Options:"
    ensures t == Steps ==> |r| >= 3 && r[1] == "" && r[2] == "Consider these candidates:"
    ensures t == Inline ==> |r| >= 4 && r[|r| - 3] == "" && r[|r| - 2] == "Options:"
  {
    match t
    case Block => ListedLines(RStrip(question), "Options:", OptionLines(t, pairs), instr)
    case Inline => InlineLines(RStrip(question), OptionLines(t, pairs), instr)
    case Steps => ListedLines(RStrip(question), "Consider these candidates:", OptionLines(t, pairs), instr)
  }

  function Render(t: Template, question: string, pairs: seq<OptionPair>, instr: seq<string>): string
  {
    Join(Lines(t, question, pairs, instr), "\n")
  }

  /** Every option appears in the prompt, in its template's form. */
  lemma RenderShowsOption(t: Template, question: string, pairs: seq<OptionPair>, instr: seq<string>, i: nat)
    requires i < |pairs|
    ensures IsInfix(OptionLine(t, pairs[i]), Render(t, question, pairs, instr))
  {
    if t == Inline {
      InlineShowsOption(question, pairs, instr, i);
    } else {
      ListedShowsOption(t, question, pairs, instr, i);
    }
  }

  lemma ListedShowsOption(t: Template, question: string, pairs: seq<OptionPair>, instr: seq<string>, i: nat)
    requires i < |pairs| && t != Inline
    ensures IsInfix(OptionLine(t, pairs[i]), Render(t, question, pairs, instr))
  {
    JoinContainsPart(Lines(t, question, pairs, instr), "\n", 3 + i);
  }

  lemma InlineShowsOption(question: string, pairs: seq<OptionPair>, instr: seq<string>, i: nat)
    requires i < |pairs|
    ensures IsInfix(OptionLine(Inline, pairs[i]), Render(Inline, question, pairs, instr))
  {
    InfixOfLastLine(OptionLines(Inline, pairs), Lines(Inline, question, pairs, instr), i);
  }

  /** A part of the last line is part of the whole text. */
  lemma InfixOfLastLine(options: seq<string>, lines: seq<string>, i: nat)
    requires i < |options| && |lines| > 0 && lines[|lines| - 1] == Join(options, " ")
    ensures IsInfix(options[i], Join(lines, "\n"))
  {
    JoinContainsPart(options, " ", i);
    JoinContainsPart(lines, "\n", |lines| - 1);
    InfixTransitive(options[i], lines[|lines| - 1], Join(lines, "\n"));
  }

  /** Every instruction line appears in the prompt. */
  lemma RenderShowsInstruction(t: Template, question: string, pairs: seq<OptionPair>, instr: seq<string>, j: nat)
    requires j < |instr|
    ensures IsInfix(instr[j], Render(t, question, pairs, instr))
  {
    var lines := Lines(t, question, pairs, instr);
    var at := if t == Inline then 2 + j else 4 + |pairs| + j;
    assert at < |lines| && lines[at] == instr[j];
    JoinContainsPart(lines, "\n", at);
    assert Render(t, question, pairs, instr) == Join(lines, "\n");
  }

  /** The `image` field: one path, a list of paths, or a JSON value that is
      neither (`null`, a number, a boolean), which `list()` cannot iterate. */
  datatype ImageField = Path(path: string) | Paths(paths: seq<string>) | NotIterable

  /** The image list of a record (grounding/pipeline/convert.py:39-42 and
      202-203): a missing field gives no images, a single path becomes a
      one-element list, a list is kept, and anything else is the
      `TypeError` of `list()`, here `None`. */
  function ImageList(image: Option<ImageField>): (r: Option<seq<string>>)
    ensures image.Some? && image.value.Path? ==> r == Some([image.value.path])
    ensures image.Some? && image.value.Paths? ==> r == Some(image.value.paths)
    ensures image.None? ==> r == Some([])
    ensures r.None? <==> image.Some? && image.value.NotIterable?
  {
    match image
    case None => Some([])
    case Some(Path(p)) => Some([p])
    case Some(Paths(ps)) => Some(ps)
    case Some(NotIterable) => None
  }

  /** The `source_id` field: an integer, a string, or absent (`None`). */
  datatype RawId = IntId(number: int) | TextId(text: string) | NoId

  datatype ChatId = NumberId(number: int) | StringId(text: string)

  /** `int(str(raw_id))`, falling back to `str(raw_id)` on `ValueError`. */
  function ConvertId(raw: RawId): (r: ChatId)
    ensures raw.IntId? ==> r == NumberId(raw.number)
    ensures raw.NoId? ==> r == StringId("None")
    ensures raw.TextId? && r.NumberId? ==> ParseInt(Strip(raw.text)) == Some(r.number)
    ensures raw.TextId? && r.StringId? ==> ParseInt(Strip(raw.text)).None? && r.text == raw.text
  {
    match raw
    case IntId(n) => NumberId(n)
    case NoId => StringId("None")
    case TextId(s) =>
      match ParseInt(Strip(s))
      case Some(n) => NumberId(n)
      case None => StringId(s)
  }

  /** A numeric string id becomes the number it spells. */
  lemma ConvertIdOfDecimal(i: int)
    ensures ConvertId(TextId(IntToString(i))) == NumberId(i)
  {
    var s := IntToString(i);
    var digits := NatToString(if i < 0 then -i else i);
    assert IsDigit(digits[|digits| - 1]);
    assert s[|s| - 1] == digits[|digits| - 1];
    assert i >= 0 ==> IsDigit(s[0]);
    StripUnchanged(s);
    ParseIntToString(i);
  }

  /** The fields of an input record `_convert_record` reads. */
  datatype RawRecord = RawRecord(
    choices: Option<seq<string>>,
    question: Option<string>,
    image: Option<ImageField>,
    sourceId: RawId)

  /** The draws of one conversion: the shuffle order, `rng.choice` of a
      style and `rng.choice` of a template. */
  datatype ConvertDraws = ConvertDraws(perm: seq<nat>, style: Style, template: Template)

  /** One chat example: the human prompt and the expected (gpt) answer. */
  datatype Example = Example(image: seq<string>, id: ChatId, human: string, gpt: string, imageCount: nat)

  /** `_convert_record`. */
  method ConvertRecord(rec: RawRecord, d: ConvertDraws) returns (r: Result<Example, ConvertError>)
    requires rec.choices.Some? ==> IsPermutation(d.perm, |rec.choices.value|)
    ensures rec.choices.None? || |rec.choices.value| == 0 ==> r == Failure(MissingChoices)
    ensures rec.choices.Some? && |rec.choices.value| == 1 ==> r == Failure(TooFewChoices)
    ensures rec.choices.Some? && |rec.choices.value| > |OptionLetters| ==> r == Failure(TooManyChoices)
    ensures rec.choices.Some? && 2 <= |rec.choices.value| <= |OptionLetters| ==>
      if ImageList(rec.image).Some? then r.Success? else r == Failure(ImageNotIterable)
    ensures r.Success? ==> ImageList(rec.image) == Some(r.value.image) && r.value.imageCount == |r.value.image|
    ensures r.Success? ==> r.value.id == ConvertId(rec.sourceId)
    ensures r.Success? ==> rec.choices.Some? && 2 <= |rec.choices.value| <= |OptionLetters|
    ensures r.Success? ==>
      r.value.gpt == Answer(d.style, OptionLetters[PositionOf(d.perm, |rec.choices.value|, 0)])
    ensures r.Success? ==>
      var pairs := Arranged(rec.choices.value, d.perm);
      var question := Strip(if rec.question.Some? then rec.question.value else "");
      r.value.human == Render(d.template, question, pairs, InstructionLines(d.style, InstructionContext(pairs)))
    ensures r.Success? ==>
      var answer := ParseAnswer(d.style, r.value.gpt);
      answer.Some? && IsInfix(OptionLine(d.template, OptionPair(answer.value, rec.choices.value[0])), r.value.human)
  {
    if rec.choices.None? || |rec.choices.value| == 0 {
      return Failure(MissingChoices);
    }
    var choices := rec.choices.value;
    if |choices| < 2 {
      return Failure(TooFewChoices);
    }
    var shuffled := ShuffleChoices(choices, d.perm);
    if shuffled.Failure? {
      return Failure(TooManyChoices);
    }
    var pairs := shuffled.value.pairs;
    var question := Strip(if rec.question.Some? then rec.question.value else "");
    var instr := InstructionLines(d.style, InstructionContext(pairs));
    var human := Render(d.template, question, pairs, instr);
    var gpt := Answer(d.style, shuffled.value.correct);
    var k := PositionOf(d.perm, |choices|, 0);
    OptionLettersOrdered();
    AnswerRoundTrip(d.style, shuffled.value.correct);
    RenderShowsOption(d.template, question, pairs, instr, k);
    var image := ImageList(rec.image);
    if image.None? {
      return Failure(ImageNotIterable);
    }
    return Success(Example(image.value, ConvertId(rec.sourceId), human, gpt, |image.value|));
  }
}

=== FILE: decimal.dfy ===
/** Decimal text for integers and fixed-point numbers: `str(int)`, the
    digits-only subset of `int(str)`, `round(x, 3)` and the `:.3f` rendering
    of an already rounded coordinate. Coordinates are reals; a value rounded
    to three decimals is represented exactly by its count of thousandths. */
module Decimal {
  import opened Results

  predicate IsDigit(c: char)
  {
    '0' <= c <= '9'
  }

  predicate AllDigits(s: string)
  {
    forall i :: 0 <= i < |s| ==> IsDigit(s[i])
  }

  function DigitChar(d: nat): (c: char)
    requires d < 10
    ensures IsDigit(c)
  {
    ('0' as int + d) as char
  }

  function DigitValue(c: char): (d: nat)
    requires IsDigit(c)
    ensures d < 10 && DigitChar(d) == c
  {
    c as int - '0' as int
  }

  /** The number a string of decimal digits denotes. */
  function DigitsValue(s: string): nat
    requires AllDigits(s)
  {
    if |s| == 0 then 0 else DigitsValue(s[..|s| - 1]) * 10 + DigitValue(s[|s| - 1])
  }

  /** `str(n)` for a natural number. */
  function NatToString(n: nat): (s: string)
    ensures |s| > 0 && AllDigits(s)
    ensures |s| > 1 ==> s[0] != '0'
    decreases n
  {
    if n < 10 then [DigitChar(n)] else NatToString(n / 10) + [DigitChar(n % 10)]
  }

  lemma {:induction false} NatToStringRoundTrip(n: nat)
    ensures DigitsValue(NatToString(n)) == n
    decreases n
  {
    if n >= 10 {
      NatToStringRoundTrip(n / 10);
      var s := NatToString(n);
      assert s[..|s| - 1] == NatToString(n / 10);
      assert DigitValue(s[|s| - 1]) == n % 10;
    }
  }

  /** `str(i)` for an integer. */
  function IntToString(i: int): string
  {
    if i < 0 then "-" + NatToString(-i) else NatToString(i)
  }

  /** `int(s)` restricted to an optional sign followed by ASCII digits;
      `None` stands for the `ValueError` Python raises. */
  function ParseInt(s: string): (r: Option<int>)
    ensures r.Some? <==> (|s| > 0 && AllDigits(s)) || (|s| > 1 && (s[0] == '-' || s[0] == '+') && AllDigits(s[1..]))
    ensures AllDigits(s) && |s| > 0 ==> r == Some(DigitsValue(s))
    ensures |s| > 1 && s[0] == '+' && AllDigits(s[1..]) ==> r == Some(DigitsValue(s[1..]))
    ensures |s| > 1 && s[0] == '-' && AllDigits(s[1..]) ==> r.Some? && r.value == -(DigitsValue(s[1..]) as int)
  {
    if |s| > 1 && (s[0] == '-' || s[0] == '+') && AllDigits(s[1..]) then
      var magnitude: int := DigitsValue(s[1..]);
      Some(if s[0] == '-' then -magnitude else magnitude)
    else if |s| > 0 && AllDigits(s) then Some(DigitsValue(s))
    else None
  }

  /** `int(str(i)) == i` */
  lemma ParseIntToString(i: int)
    ensures ParseInt(IntToString(i)) == Some(i)
  {
    if i < 0 {
      NatToStringRoundTrip(-i);
      assert IntToString(i)[1..] == NatToString(-i);
    } else {
      NatToStringRoundTrip(i);
    }
  }

  /** `round(x, 3)`, as a whole number of thousandths (ties round up). */
  function Round3(x: real): (t: int)
    ensures t as real - 0.5 <= x * 1000.0 < t as real + 0.5
  {
    (x * 1000.0 + 0.5).Floor
  }

  /** Three digits, with leading zeros, of a number below 1000. */
  function Pad3(n: nat): (s: string)
    requires n < 1000
    ensures |s| == 3 && AllDigits(s) && DigitsValue(s) == n
  {
    var s := [DigitChar(n / 100), DigitChar(n / 10 % 10), DigitChar(n % 10)];
    assert DigitsValue(s[..2][..1][..0]) == 0;
    assert DigitsValue(s[..2][..1]) == n / 100;
    assert DigitsValue(s[..2]) == n / 100 * 10 + n / 10 % 10;
    s
  }

  /** `f"{v:.3f}"` of a value holding `t` thousandths. */
  function Fixed3(t: int): (s: string)
    ensures |s| >= 5 && s[|s| - 4] == '.' && AllDigits(s[|s| - 3..])
  {
    var m := if t < 0 then -t else t;
    (if t < 0 then "-" else "") + NatToString(m / 1000) + "." + Pad3(m % 1000)
  }

  /** Reads back a `:.3f` rendering as a count of thousandths. */
  function ParseFixed3(s: string): Option<int>
  {
    if |s| < 5 || s[|s| - 4] != '.' then None
    else
      var whole := s[..|s| - 4];
      var frac := s[|s| - 3..];
      var neg := whole[0] == '-';
      var digits := if neg then whole[1..] else whole;
      if |digits| == 0 || !AllDigits(digits) || !AllDigits(frac) then None
      else
        var magnitude := DigitsValue(digits) * 1000 + DigitsValue(frac);
        Some(if neg then -magnitude else magnitude)
  }

  /** Rendering a rounded coordinate and reading it back recovers it exactly. */
  lemma Fixed3RoundTrip(t: int)
    ensures ParseFixed3(Fixed3(t)) == Some(t)
  {
    var m := if t < 0 then -t else t;
    var s := Fixed3(t);
    var sign := if t < 0 then "-" else "";
    var intPart := NatToString(m / 1000);
    assert s == sign + intPart + "." + Pad3(m % 1000);
    var whole := s[..|s| - 4];
    assert whole == sign + intPart;
    assert s[|s| - 3..] == Pad3(m % 1000);
    NatToStringRoundTrip(m / 1000);
    var digits := if whole[0] == '-' then whole[1..] else whole;
    if t < 0 {
      assert whole[0] == '-';
      assert digits == intPart;
    } else {
      assert IsDigit(intPart[0]);
      assert whole[0] != '-';
      assert digits == intPart;
    }
    assert DigitsValue(digits) * 1000 + DigitsValue(s[|s| - 3..]) == m;
  }
}

=== FILE: dedup.dfy ===
/** The `add_candidate` closure shared by the multi-category and multi-box
    formatters: a candidate is kept only when it is admissible and its
    signature is not yet in `used_signatures`, a set seeded with the
    target's signature. The formatters differ only in the signature function
    and the admissibility test, which are parameters here. */
module Dedup {
  import opened Permutations

  datatype Collection<T, S> = Collection(accepted: seq<T>, used: set<S>)

  /** The empty collection before any candidate is offered: no distractors
      yet, and only the target's own signature counts as used. */
  function Start<T, S>(target: S): (c: Collection<T, S>)
    ensures c.accepted == [] && target in c.used
  {
    Collection([], {target})
  }

  /** The invariant `add_candidate` keeps: `used` holds exactly the target's
      signature and those of the accepted candidates, and all of these are
      pairwise different. */
  ghost predicate Valid<T, S>(c: Collection<T, S>, target: S, sig: T -> S)
  {
    && c.used == {target} + (set i | 0 <= i < |c.accepted| :: sig(c.accepted[i]))
    && (forall i :: 0 <= i < |c.accepted| ==> sig(c.accepted[i]) != target)
    && (forall i, j :: 0 <= i < j < |c.accepted| ==> sig(c.accepted[i]) != sig(c.accepted[j]))
  }

  /** `add_candidate(candidate)`; `admissible` is the formatter's own filter. */
  function Add<T, S(==)>(c: Collection<T, S>, cand: T, sig: T -> S, admissible: bool): (r: Collection<T, S>)
    ensures |c.accepted| <= |r.accepted| <= |c.accepted| + 1
    ensures r.accepted[..|c.accepted|] == c.accepted
    ensures |r.accepted| > |c.accepted| <==> admissible && sig(cand) !in c.used
    ensures |r.accepted| > |c.accepted| ==> r.accepted[|c.accepted|] == cand
    ensures c.used <= r.used
    ensures admissible ==> sig(cand) in r.used
  {
    if admissible && sig(cand) !in c.used then Collection(c.accepted + [cand], c.used + {sig(cand)}) else c
  }

  lemma StartValid<T, S>(target: S, sig: T -> S)
    ensures Valid(Start(target), target, sig)
  {
  }

  lemma AddKeepsValid<T, S>(c: Collection<T, S>, cand: T, sig: T -> S, admissible: bool, target: S)
    requires Valid(c, target, sig)
    ensures Valid(Add(c, cand, sig, admissible), target, sig)
  {
    var r := Add(c, cand, sig, admissible);
    if r != c {
      var n := |c.accepted|;
      assert r.accepted == c.accepted + [cand];
      var before := set i | 0 <= i < n :: sig(c.accepted[i]);
      var after := set i | 0 <= i < n + 1 :: sig(r.accepted[i]);
      assert after == before + {sig(cand)} by {
        forall s | s in after
          ensures s in before + {sig(cand)}
        {
          var i :| 0 <= i < n + 1 && s == sig(r.accepted[i]);
          if i < n {
            assert r.accepted[i] == c.accepted[i];
          }
        }
        forall s | s in before
          ensures s in after
        {
          var i :| 0 <= i < n && s == sig(c.accepted[i]);
          assert r.accepted[i] == c.accepted[i];
        }
        assert r.accepted[n] == cand;
      }
      forall i | 0 <= i < n
        ensures sig(r.accepted[i]) != sig(cand)
      {
        assert sig(c.accepted[i]) in c.used;
      }
    }
  }

  /** Candidates drawn at distinct positions of a valid collection have
      pairwise different signatures, all different from the target's. */
  lemma SampleDistinct<T, S>(c: Collection<T, S>, target: S, sig: T -> S, idx: seq<nat>)
    requires Valid(c, target, sig)
    requires IsSample(idx, |idx|, |c.accepted|)
    ensures forall i :: 0 <= i < |idx| ==> sig(Select(c.accepted, idx)[i]) != target
    ensures forall i, j :: 0 <= i < j < |idx| ==> sig(Select(c.accepted, idx)[i]) != sig(Select(c.accepted, idx)[j])
  {
    var picked := Select(c.accepted, idx);
    forall i, j | 0 <= i < j < |idx|
      ensures sig(picked[i]) != sig(picked[j])
    {
      if idx[i] < idx[j] {
        assert sig(c.accepted[idx[i]]) != sig(c.accepted[idx[j]]);
      } else {
        assert sig(c.accepted[idx[j]]) != sig(c.accepted[idx[i]]);
      }
    }
  }
}

=== FILE: geometry.dfy ===
/** Bounding boxes and the box jitter of grounding/utils/bbox.py.
    A box is four real coordinates `[x1, y1, x2, y2]`; the random numbers the
    source draws are passed in as a `BoxDraw`. */
module Geometry {

  datatype Box = Box(x1: real, y1: real, x2: real, y2: real)

  predicate InUnit(b: Box)
  {
    0.0 <= b.x1 <= 1.0 && 0.0 <= b.y1 <= 1.0 && 0.0 <= b.x2 <= 1.0 && 0.0 <= b.y2 <= 1.0
  }

  predicate Ordered(b: Box)
  {
    b.x1 <= b.x2 && b.y1 <= b.y2
  }

  /** A normalised box: inside the unit square, corners in order. */
  predicate Valid(b: Box)
  {
    InUnit(b) && Ordered(b)
  }

  function Abs(x: real): real
  {
    if x < 0.0 then -x else x
  }

  /** Every coordinate of `a` is within `delta` of the same coordinate of `b`. */
  predicate Near(a: Box, b: Box, delta: real)
  {
    Abs(a.x1 - b.x1) <= delta && Abs(a.y1 - b.y1) <= delta
    && Abs(a.x2 - b.x2) <= delta && Abs(a.y2 - b.y2) <= delta
  }

  /** `max(0, min(1, c))` */
  function Clamp(c: real): (r: real)
    ensures 0.0 <= r <= 1.0
    ensures 0.0 <= c <= 1.0 ==> r == c
    ensures c < 0.0 ==> r == 0.0
    ensures c > 1.0 ==> r == 1.0
  {
    var low := if 1.0 < c then 1.0 else c;
    if 0.0 > low then 0.0 else low
  }

  /** Clamp every coordinate, then swap the x pair and the y pair when inverted. */
  function ClampAndOrder(b: Box): (r: Box)
    ensures Valid(r)
    ensures Valid(b) ==> r == b
    ensures {r.x1, r.x2} == {Clamp(b.x1), Clamp(b.x2)}
    ensures {r.y1, r.y2} == {Clamp(b.y1), Clamp(b.y2)}
  {
    var c := Box(Clamp(b.x1), Clamp(b.y1), Clamp(b.x2), Clamp(b.y2));
    var xs := if c.x1 > c.x2 then (c.x2, c.x1) else (c.x1, c.x2);
    var ys := if c.y1 > c.y2 then (c.y2, c.y1) else (c.y1, c.y2);
    Box(xs.0, ys.0, xs.1, ys.1)
  }

  /** The noise behind one call of `random_bbox`: the branch taken by
      `random.random() < 0.9` and the four uniform draws of that branch. */
  datatype BoxDraw =
    | Jitter(dx1: real, dy1: real, dx2: real, dy2: real)  // uniform(-0.1, 0.1) offsets
    | Fresh(u1: real, u2: real, u3: real, u4: real)       // uniform(0, 1) coordinates

  const MaxJitter: real := 0.1

  /** The draw lies in the ranges `random.uniform` draws from. */
  predicate InRange(d: BoxDraw)
  {
    match d
    case Jitter(dx1, dy1, dx2, dy2) =>
      Abs(dx1) <= MaxJitter && Abs(dy1) <= MaxJitter && Abs(dx2) <= MaxJitter && Abs(dy2) <= MaxJitter
    case Fresh(u1, u2, u3, u4) =>
      0.0 <= u1 <= 1.0 && 0.0 <= u2 <= 1.0 && 0.0 <= u3 <= 1.0 && 0.0 <= u4 <= 1.0
  }

  /** `random_bbox(original)`: perturb every coordinate or draw a fresh box,
      then clamp to [0, 1] and put both coordinate pairs in order. */
  function RandomBox(original: Box, d: BoxDraw): (r: Box)
    ensures Valid(r)
    ensures d.Jitter? && InRange(d) && Valid(original) ==> Near(r, original, MaxJitter)
  {
    var raw := match d
      case Jitter(dx1, dy1, dx2, dy2) =>
        Box(original.x1 + dx1, original.y1 + dy1, original.x2 + dx2, original.y2 + dy2)
      case Fresh(u1, u2, u3, u4) => Box(u1, u2, u3, u4);
    ClampAndOrder(raw)
  }
}

=== FILE: multi_box.dfy ===
/** grounding/format/detect_multi_formatter.py: questions whose answer is
    the whole box list of one label. Distractors are the box lists of the
    other labels and mutations of the target list; they must have exactly
    as many boxes as the target and are deduplicated by the exact,
    order-sensitive list of boxes. */
module MultiBox {
  import opened Results
  import opened Text
  import opened Decimal
  import opened Geometry
  import opened Permutations
  import opened Annotations
  import Dedup

  const QuestionType: string := "detect_multi"

  const TemplateHead: string := "Please detect all regions corresponding to the "
  const TemplateMiddle: string := " in this image. Please provide the bounding box coordinates for the described objects using the format [x1, y1, x2, y2]. Here, [x1, y1] represent the top-left coordinates and [x2, y2] the bottom-right coordinates within a normalized range of 0 to 1, where [0, 0] is the top-left corner and [1, 1] is the bottom-right corner of the image. There are "
  const TemplateTail: string := " bounding boxes to report."

  /** `_signature(bboxes)`: the tuple of coordinate tuples, equal exactly
      when the box lists are equal element by element, in order. */
  function Signature(boxes: seq<Box>): seq<Box>
  {
    boxes
  }

  /** `check_eligible`: a label with more than one box, or else the outcome
      `coin` of `random.random() < 0.1`. */
  function CheckEligible(objs: Objs, coin: bool): (r: bool)
    ensures HasMultiGroup(objs) ==> r
    ensures !HasMultiGroup(objs) ==> r == coin
  {
    MultiGroupsNonEmpty(objs);
    |MultiGroups(objs)| > 0 || coin
  }

  /** The groups the target is drawn from: the multi-box labels when there
      are any, every label otherwise. */
  function Candidates(objs: Objs): (r: Objs)
    ensures HasMultiGroup(objs) ==> forall g :: g in r <==> g in objs && |g.boxes| > 1
    ensures !HasMultiGroup(objs) ==> r == objs
    ensures |r| > 0 <==> |objs| > 0
    ensures forall g :: g in r ==> g in objs
  {
    MultiGroupsNonEmpty(objs);
    if |MultiGroups(objs)| == 0 then objs else MultiGroups(objs)
  }

  /** One filler of a candidate: the position of a target box to copy and
      the jitter applied to the copy. */
  datatype Filler = Filler(ref: nat, jitter: BoxDraw)

  /** The draws of one mutation attempt: the kept indices
      (`random.sample(range(target_len), keep_count)`) and the fillers. */
  datatype KeepDraw = KeepDraw(keep: seq<nat>, fill: seq<Filler>)

  predicate FillersFit(fill: seq<Filler>, len: nat)
  {
    forall k :: 0 <= k < |fill| ==> fill[k].ref < len
  }

  /** The draws of one keep attempt (grounding/format/detect_multi_formatter.py:69-74):
      how many boxes to keep, between one and all but one of them (exactly
      one for a single-box target), distinct positions to keep, and one
      filler for each box not kept. */
  predicate ValidKeepDraw(len: nat, k: KeepDraw)
  {
    len > 0 ==>
      && (if len > 1 then 1 <= |k.keep| <= len - 1 else |k.keep| == 1)
      && IsSample(k.keep, |k.keep|, len)
      && |k.fill| == len - |k.keep|
      && FillersFit(k.fill, len)
  }

  function Fill(target: seq<Box>, fill: seq<Filler>): (r: seq<Box>)
    requires FillersFit(fill, |target|)
    ensures |r| == |fill|
    ensures forall k :: 0 <= k < |r| ==> r[k] == RandomBox(target[fill[k].ref], fill[k].jitter) && Valid(r[k])
  {
    seq(|fill|, k requires 0 <= k < |fill| => RandomBox(target[fill[k].ref], fill[k].jitter))
  }

  /** The candidate of one mutation attempt: when the target has more than
      one box it keeps between 1 and `target_len - 1` of them, at distinct
      indices, and is padded with jittered target boxes to `target_len`. */
  function KeepCandidate(target: seq<Box>, k: KeepDraw): (r: seq<Box>)
    requires |target| > 0 && ValidKeepDraw(|target|, k)
    ensures |r| == |target|
    ensures |target| > 1 ==> 1 <= |k.keep| <= |target| - 1
    ensures forall i :: 0 <= i < |k.keep| ==> r[i] == target[k.keep[i]]
    ensures forall i, j :: 0 <= i < j < |k.keep| ==> k.keep[i] != k.keep[j]
    ensures forall i :: |k.keep| <= i < |r| ==> Valid(r[i])
  {
    Select(target, k.keep) + Fill(target, k.fill)
  }

  type Pool = Dedup.Collection<seq<Box>, seq<Box>>

  /** `add_candidate`: candidates of exactly `target_len` boxes with an unused signature. */
  function AddCandidate(c: Pool, cand: seq<Box>, len: nat): Pool
  {
    Dedup.Add(c, cand, Signature, |cand| == len)
  }

  /** Everything accepted has the target's length and a signature
      different from the target's and from each other's. */
  ghost predicate Sound(c: Pool, target: seq<Box>)
  {
    Dedup.Valid(c, Signature(target), Signature)
    && forall i :: 0 <= i < |c.accepted| ==> |c.accepted[i]| == |target|
  }

  lemma AddCandidateSound(c: Pool, target: seq<Box>, cand: seq<Box>)
    requires Sound(c, target)
    ensures Sound(AddCandidate(c, cand, |target|), target)
  {
    Dedup.AddKeepsValid(c, cand, Signature, |cand| == |target|, Signature(target));
  }

  /** Offers the box list of every label other than the chosen one, in
      record order (grounding/format/detect_multi_formatter.py:62-65), so
      each one of the target's length ends up among the used signatures. */
  function OfferOthers(c: Pool, others: Objs, name: string, target: seq<Box>): (r: Pool)
    ensures Sound(c, target) ==> Sound(r, target)
    ensures c.used <= r.used
    ensures |c.accepted| <= |r.accepted|
    ensures forall k :: 0 <= k < |others| && others[k].name != name && |others[k].boxes| == |target| ==>
      others[k].boxes in r.used
    decreases |others|
  {
    if |others| == 0 then c
    else
      var next := if others[0].name == name then c else AddCandidate(c, others[0].boxes, |target|);
      assert Sound(c, target) ==> Sound(next, target) by {
        if Sound(c, target) && others[0].name != name {
          AddCandidateSound(c, target, others[0].boxes);
        }
      }
      var r := OfferOthers(next, others[1..], name, target);
      assert forall k :: 1 <= k < |others| ==> others[k] == others[1..][k - 1];
      r
  }

  const KeepAttempts: nat := 50

  /** Up to fifty keep attempts, stopping early once three distractors are
      accepted (grounding/format/detect_multi_formatter.py:68-76). */
  function RunKeeps(c: Pool, target: seq<Box>, draws: seq<KeepDraw>): (r: Result<Pool, FormatError>)
    requires forall k :: 0 <= k < |draws| ==> ValidKeepDraw(|target|, draws[k])
    ensures |target| > 0 ==> r.Success?
    ensures r.Success? ==> |c.accepted| <= |r.value.accepted| && c.used <= r.value.used
    ensures r.Success? && Sound(c, target) ==> Sound(r.value, target)
    decreases |draws|
  {
    if |c.accepted| >= 3 || |draws| == 0 then Success(c)
    else if |target| == 0 then Failure(EmptyRange)
    else
      var cand := KeepCandidate(target, draws[0]);
      assert Sound(c, target) ==> Sound(AddCandidate(c, cand, |target|), target) by {
        if Sound(c, target) {
          AddCandidateSound(c, target, cand);
        }
      }
      RunKeeps(AddCandidate(c, cand, |target|), target, draws[1..])
  }

  const PoolTarget: nat := 8

  /** Offers fully jittered candidates until eight distractors are accepted
      (grounding/format/detect_multi_formatter.py:77-81). The source loop has
      no bound; here it is cut off when the draws run out. */
  function RunTopUps(c: Pool, target: seq<Box>, draws: seq<seq<Filler>>): (r: Result<Pool, FormatError>)
    requires forall k :: 0 <= k < |draws| ==> |draws[k]| == |target| && FillersFit(draws[k], |target|)
    ensures r.Success? ==> |r.value.accepted| >= PoolTarget && |c.accepted| <= |r.value.accepted|
    ensures r.Success? ==> c.used <= r.value.used
    ensures r.Success? && Sound(c, target) ==> Sound(r.value, target)
    ensures r.Failure? ==> r.error == DrawsExhausted
    decreases |draws|
  {
    if |c.accepted| >= PoolTarget then Success(c)
    else if |draws| == 0 then Failure(DrawsExhausted)
    else
      var cand := Fill(target, draws[0]);
      assert Sound(c, target) ==> Sound(AddCandidate(c, cand, |target|), target) by {
        if Sound(c, target) {
          AddCandidateSound(c, target, cand);
        }
      }
      RunTopUps(AddCandidate(c, cand, |target|), target, draws[1..])
  }

  /** All the draws of one `format` call. */
  datatype Draws = Draws(
    pick: nat,                   // `random.choice` among the candidate labels
    keeps: seq<KeepDraw>,        // the 50 mutation attempts
    topUps: seq<seq<Filler>>,    // the top-up attempts
    sample: seq<nat>)            // `random.sample(distractors, 3)`

  function TargetGroup(objs: Objs, d: Draws): LabelBoxes
    requires |objs| > 0 ==> d.pick < |Candidates(objs)|
    requires |objs| > 0
  {
    Candidates(objs)[d.pick]
  }

  predicate ValidSearchDraws(objs: Objs, d: Draws)
  {
    |objs| > 0 ==>
      && d.pick < |Candidates(objs)|
      && |d.keeps| == KeepAttempts
      && (forall k :: 0 <= k < |d.keeps| ==> ValidKeepDraw(|TargetGroup(objs, d).boxes|, d.keeps[k]))
      && (forall k :: 0 <= k < |d.topUps| ==>
            |d.topUps[k]| == |TargetGroup(objs, d).boxes| && FillersFit(d.topUps[k], |TargetGroup(objs, d).boxes|))
  }

  /** The candidate search: other labels, mutation attempts, top-up. */
  function Search(objs: Objs, d: Draws): (r: Result<Pool, FormatError>)
    requires ValidSearchDraws(objs, d)
    ensures |objs| == 0 ==> r == Failure(EmptyChoice)
    ensures r.Success? ==> |objs| > 0 && Sound(r.value, TargetGroup(objs, d).boxes)
    ensures r.Success? ==> |r.value.accepted| >= PoolTarget
    ensures r.Success? ==> forall k ::
      (0 <= k < |objs| && objs[k].name != TargetGroup(objs, d).name && |objs[k].boxes| == |TargetGroup(objs, d).boxes|)
      ==> objs[k].boxes in r.value.used
    ensures WellFormed(objs) && |objs| > 0 ==> r.Success? || r.error == DrawsExhausted
  {
    if |objs| == 0 then Failure(EmptyChoice)
    else
      var g := TargetGroup(objs, d);
      var start: Pool := Dedup.Start(Signature(g.boxes));
      Dedup.StartValid(Signature(g.boxes), Signature);
      var offered := OfferOthers(start, objs, g.name, g.boxes);
      var mutated :- RunKeeps(offered, g.boxes, d.keeps);
      var filled :- RunTopUps(mutated, g.boxes, d.topUps);
      Success(filled)
  }

  predicate ValidDraws(objs: Objs, d: Draws)
  {
    && ValidSearchDraws(objs, d)
    && match Search(objs, d)
       case Success(c) => IsSample(d.sample, 3, |c.accepted|)
       case Failure(_) => true
  }

  /** The target box list and three sampled distractors. */
  datatype Bundle = Bundle(name: string, target: seq<Box>, distractors: seq<seq<Box>>)

  function Synthesize(objs: Objs, d: Draws): (r: Result<Bundle, FormatError>)
    requires ValidDraws(objs, d)
    ensures r.Success? ==> (|objs| > 0 && r.value.name == TargetGroup(objs, d).name
      && r.value.target == TargetGroup(objs, d).boxes)
    ensures r.Success? ==> |r.value.distractors| == 3
    ensures r.Success? ==> forall i :: 0 <= i < 3 ==> |r.value.distractors[i]| == |r.value.target|
    ensures r.Success? ==> forall i :: 0 <= i < 3 ==> r.value.distractors[i] != r.value.target
    ensures r.Success? ==> forall i, j :: 0 <= i < j < 3 ==> r.value.distractors[i] != r.value.distractors[j]
    ensures WellFormed(objs) && |objs| > 0 ==> r.Success? || r.error == DrawsExhausted
  {
    var c :- Search(objs, d);
    var g := TargetGroup(objs, d);
    Dedup.SampleDistinct(c, Signature(g.boxes), Signature, d.sample);
    Success(Bundle(g.name, g.boxes, Select(c.accepted, d.sample)))
  }

  /** `format(data)`: the question with the article-stripped label and the
      box count, and four choices, the target box list first. */
  function Format(rec: Record, d: Draws): (r: Result<Question<seq<Box>>, FormatError>)
    requires ValidDraws(rec.objs, d)
    ensures r.Success? ==> |rec.objs| > 0 && |r.value.choices| == 4
    ensures r.Success? ==> r.value.choices[0] == TargetGroup(rec.objs, d).boxes
    ensures r.Success? ==> forall i :: 1 <= i < 4 ==>
      |r.value.choices[i]| == |r.value.choices[0]| && r.value.choices[i] != r.value.choices[0]
    ensures r.Success? ==> forall i, j :: 1 <= i < j < 4 ==> r.value.choices[i] != r.value.choices[j]
    ensures r.Success? ==> (r.value.question ==
      TemplateHead + StripArticle(TargetGroup(rec.objs, d).name) + TemplateMiddle
        + NatToString(|TargetGroup(rec.objs, d).boxes|) + TemplateTail)
    ensures WellFormed(rec.objs) && |rec.objs| > 0 ==> r.Success? || r.error == DrawsExhausted
    ensures r.Success? ==> (r.value.questionType == QuestionType
      && r.value.sourceDataset == rec.sourceDataset && r.value.sourceId == rec.sourceId && r.value.image == rec.image)
  {
    var b :- Synthesize(rec.objs, d);
    var prompt := TemplateHead + StripArticle(b.name) + TemplateMiddle + NatToString(|b.target|) + TemplateTail;
    Success(Question(rec.sourceDataset, rec.sourceId, rec.image, prompt, [b.target] + b.distractors, QuestionType))
  }
}

=== FILE: multi_object.dfy ===
/** grounding/format/detect_multi_object_formatter.py: questions whose
    answer is a list of `(label, box)` entries over two to four labels that
    each have more than one box. Distractors are made by mutating the target
    and are deduplicated by an order-independent rounded signature. */
module MultiObject {
  import opened Results
  import opened Text
  import opened Decimal
  import opened Geometry
  import opened Permutations
  import opened Annotations
  import Dedup

  const QuestionType: string := "detect_multi_object"

  const TemplateHead: string := "Please detect all instances of the following categories in this image: "
  const TemplateTail: string := ". For each detected object, provide the output in the format category:[x1, y1, x2, y2]. Here, [x1, y1] represent the top-left coordinates and [x2, y2] the bottom-right coordinates within a normalized range of 0 to 1, where [0, 0] is the top-left corner and [1, 1] is the bottom-right corner of the image."

  // ---------------------------------------------------------------------------
  // Signature and rendering
  // ---------------------------------------------------------------------------

  /** One `(name, rounded bbox)` element of a signature, coordinates in thousandths. */
  datatype SigEntry = SigEntry(name: string, t1: int, t2: int, t3: int, t4: int)

  function RoundEntry(e: Entry): SigEntry
  {
    SigEntry(e.name, Round3(e.box.x1), Round3(e.box.y1), Round3(e.box.x2), Round3(e.box.y2))
  }

  /** `_signature(entries)`: the sorted tuple of rounded entries. A sorted
      tuple is the canonical listing of a multiset, so the signature is
      represented by that multiset. */
  function Signature(entries: seq<Entry>): multiset<SigEntry>
  {
    multiset(Map(RoundEntry, entries))
  }

  /** The signature does not depend on the order of the entries. */
  lemma SignatureOrderInvariant(a: seq<Entry>, b: seq<Entry>)
    requires multiset(a) == multiset(b)
    ensures Signature(a) == Signature(b)
  {
    MapKeepsMultisetEquality(RoundEntry, a, b);
  }

  /** In particular `random.shuffle` leaves the signature unchanged. */
  lemma ShuffleKeepsSignature(entries: seq<Entry>, order: seq<nat>)
    requires IsPermutation(order, |entries|)
    ensures Signature(Select(entries, order)) == Signature(entries)
  {
    PermutationKeepsMultiset(entries, order);
    SignatureOrderInvariant(Select(entries, order), entries);
  }

  /** `"{name}: [{x1:.3f}, {y1:.3f}, {x2:.3f}, {y2:.3f}]"` of the rounded box. */
  function FormatEntry(e: Entry): string
  {
    var t := RoundEntry(e);
    e.name + ": [" + Fixed3(t.t1) + ", " + Fixed3(t.t2) + ", " + Fixed3(t.t3) + ", " + Fixed3(t.t4) + "]"
  }

  /** `_format_entries`: the entries rendered and joined by ", " in the given order. */
  function FormatEntries(entries: seq<Entry>): string
  {
    Join(Map(FormatEntry, entries), ", ")
  }

  /** The rendering is not sorted: it follows the entries' order, and every
      entry's own text occurs in it. */
  lemma FormatEntriesInOrder(a: seq<Entry>, b: seq<Entry>)
    requires |a| > 0 && |b| > 0
    ensures FormatEntries(a + b) == FormatEntries(a) + ", " + FormatEntries(b)
    ensures forall i :: 0 <= i < |a| ==> IsInfix(FormatEntry(a[i]), FormatEntries(a))
  {
    var fa, fb := Map(FormatEntry, a), Map(FormatEntry, b);
    MapAppend(FormatEntry, a, b);
    JoinAppend(fa, fb, ", ");
    forall i | 0 <= i < |a|
      ensures IsInfix(FormatEntry(a[i]), FormatEntries(a))
    {
      JoinContainsPart(fa, ", ", i);
    }
  }

  // ---------------------------------------------------------------------------
  // Eligibility and the target
  // ---------------------------------------------------------------------------

  predicate TwoMultiGroups(objs: Objs)
  {
    exists i, j :: 0 <= i < j < |objs| && |objs[i].boxes| > 1 && |objs[j].boxes| > 1
  }

  lemma {:induction false} MultiGroupsAtLeastTwo(objs: Objs)
    ensures |MultiGroups(objs)| >= 2 <==> TwoMultiGroups(objs)
    decreases |objs|
  {
    if |objs| > 0 {
      MultiGroupsAtLeastTwo(objs[1..]);
      MultiGroupsNonEmpty(objs[1..]);
      TwoMultiGroupsStep(objs);
    }
  }

  /** Two multi-box labels: the first one plus another later, or two later. */
  lemma TwoMultiGroupsStep(objs: Objs)
    requires |objs| > 0
    ensures TwoMultiGroups(objs) <==>
      (|objs[0].boxes| > 1 && HasMultiGroup(objs[1..])) || TwoMultiGroups(objs[1..])
  {
    var tail := objs[1..];
    if TwoMultiGroups(objs) {
      var i, j :| 0 <= i < j < |objs| && |objs[i].boxes| > 1 && |objs[j].boxes| > 1;
      assert tail[j - 1] == objs[j];
      if i > 0 {
        assert tail[i - 1] == objs[i];
      }
    }
    if |objs[0].boxes| > 1 && HasMultiGroup(tail) {
      var j :| 0 <= j < |tail| && |tail[j].boxes| > 1;
      assert objs[j + 1] == tail[j];
    }
    if TwoMultiGroups(tail) {
      var i, j :| 0 <= i < j < |tail| && |tail[i].boxes| > 1 && |tail[j].boxes| > 1;
      assert objs[i + 1] == tail[i] && objs[j + 1] == tail[j];
    }
  }

  /** `check_eligible`: at least two labels have more than one box. */
  function CheckEligible(objs: Objs): (r: bool)
    ensures r <==> TwoMultiGroups(objs)
  {
    MultiGroupsAtLeastTwo(objs);
    |MultiGroups(objs)| >= 2
  }

  function Min(a: nat, b: nat): nat
  {
    if a < b then a else b
  }

  /** The draws behind the target: `sample_size`, the `random.sample` of
      label positions among the multi-box labels, and for each chosen label
      the `random.sample` of its box positions. */
  datatype TargetDraw = TargetDraw(size: nat, labels: seq<nat>, picks: seq<seq<nat>>)

  /** The number of labels to choose among `m`: two to `m` when there are
      more than two, otherwise all of them
      (grounding/format/detect_multi_object_formatter.py:47-48). */
  predicate SampleSizeOk(size: nat, m: nat)
  {
    if m > 2 then 2 <= size <= m else size == m
  }

  /** A chosen label contributes at most three of its boxes
      (grounding/format/detect_multi_object_formatter.py:54). */
  function Take(g: LabelBoxes): nat
  {
    Min(|g.boxes|, 3)
  }

  predicate ValidTargetDraw(objs: Objs, d: TargetDraw)
  {
    var multi := MultiGroups(objs);
    && SampleSizeOk(d.size, Min(4, |multi|))
    && IsSample(d.labels, d.size, |multi|)
    && |d.picks| == d.size
    && forall c :: 0 <= c < d.size ==>
         IsSample(d.picks[c], Take(multi[d.labels[c]]), |multi[d.labels[c]].boxes|)
  }

  /** The entries of `name` with the boxes at positions `pick`. */
  function Block(g: LabelBoxes, pick: seq<nat>): (r: seq<Entry>)
    requires forall i :: 0 <= i < |pick| ==> pick[i] < |g.boxes|
    ensures |r| == |pick|
    ensures forall i :: 0 <= i < |r| ==> r[i] == Entry(g.name, g.boxes[pick[i]])
  {
    seq(|pick|, i requires 0 <= i < |pick| => Entry(g.name, g.boxes[pick[i]]))
  }

  /** Number of entries carrying `name`. */
  function CountName(entries: seq<Entry>, name: string): nat
  {
    if |entries| == 0 then 0
    else (if entries[0].name == name then 1 else 0) + CountName(entries[1..], name)
  }

  lemma {:induction false} CountNameAppend(a: seq<Entry>, b: seq<Entry>, name: string)
    ensures CountName(a + b, name) == CountName(a, name) + CountName(b, name)
    decreases |a|
  {
    if |a| > 0 {
      assert (a + b)[0] == a[0];
      assert (a + b)[1..] == a[1..] + b;
      CountNameAppend(a[1..], b, name);
    } else {
      assert a + b == b;
    }
  }

  lemma {:induction false} CountNameBlock(g: LabelBoxes, pick: seq<nat>, name: string)
    requires forall i :: 0 <= i < |pick| ==> pick[i] < |g.boxes|
    ensures CountName(Block(g, pick), name) == if name == g.name then |pick| else 0
    decreases |pick|
  {
    if |pick| > 0 {
      assert Block(g, pick)[1..] == Block(g, pick[1..]);
      CountNameBlock(g, pick[1..], name);
    }
  }

  predicate PicksFit(multi: Objs, labels: seq<nat>, picks: seq<seq<nat>>)
  {
    && |labels| == |picks|
    && (forall c :: 0 <= c < |labels| ==> labels[c] < |multi|)
    && (forall c, i :: 0 <= c < |labels| && 0 <= i < |picks[c]| ==> picks[c][i] < |multi[labels[c]].boxes|)
  }

  /** The loop that appends, label by label, the sampled boxes of every chosen label. */
  function Gather(multi: Objs, labels: seq<nat>, picks: seq<seq<nat>>): seq<Entry>
    requires PicksFit(multi, labels, picks)
    decreases |labels|
  {
    if |labels| == 0 then []
    else Block(multi[labels[0]], picks[0]) + Gather(multi, labels[1..], picks[1..])
  }

  /** Every entry is a box of one of the chosen labels, under that label's name. */
  predicate FromLabels(multi: Objs, labels: seq<nat>, entries: seq<Entry>)
    requires forall c :: 0 <= c < |labels| ==> labels[c] < |multi|
  {
    forall i :: 0 <= i < |entries| ==>
      exists c :: 0 <= c < |labels| && entries[i].name == multi[labels[c]].name && entries[i].box in multi[labels[c]].boxes
  }

  lemma {:induction false} GatherFromLabels(multi: Objs, labels: seq<nat>, picks: seq<seq<nat>>)
    requires PicksFit(multi, labels, picks)
    ensures FromLabels(multi, labels, Gather(multi, labels, picks))
    decreases |labels|
  {
    if |labels| > 0 {
      var head := Block(multi[labels[0]], picks[0]);
      var tailLabels := labels[1..];
      var rest := Gather(multi, tailLabels, picks[1..]);
      GatherFromLabels(multi, tailLabels, picks[1..]);
      var r := Gather(multi, labels, picks);
      assert r == head + rest;
      forall i | 0 <= i < |r|
        ensures exists c :: 0 <= c < |labels| && r[i].name == multi[labels[c]].name && r[i].box in multi[labels[c]].boxes
      {
        if i < |head| {
          assert r[i] == head[i];
          assert head[i].box == multi[labels[0]].boxes[picks[0][i]];
        } else {
          assert r[i] == rest[i - |head|];
          assert FromLabels(multi, tailLabels, rest);
          var c :| 0 <= c < |tailLabels| && rest[i - |head|].name == multi[tailLabels[c]].name
            && rest[i - |head|].box in multi[tailLabels[c]].boxes;
          assert tailLabels[c] == labels[c + 1];
        }
      }
    }
  }

  /** A name none of the chosen labels carries does not occur in the gathered entries. */
  lemma {:induction false} GatherOtherName(multi: Objs, labels: seq<nat>, picks: seq<seq<nat>>, name: string)
    requires PicksFit(multi, labels, picks)
    requires forall c :: 0 <= c < |labels| ==> multi[labels[c]].name != name
    ensures CountName(Gather(multi, labels, picks), name) == 0
    decreases |labels|
  {
    if |labels| > 0 {
      GatherOtherName(multi, labels[1..], picks[1..], name);
      CountNameAppend(Block(multi[labels[0]], picks[0]), Gather(multi, labels[1..], picks[1..]), name);
      CountNameBlock(multi[labels[0]], picks[0], name);
    }
  }

  /** With distinct chosen names, each chosen label occurs exactly as often as boxes were picked for it. */
  lemma {:induction false} GatherCount(multi: Objs, labels: seq<nat>, picks: seq<seq<nat>>, c: nat)
    requires PicksFit(multi, labels, picks)
    requires forall c, c' :: 0 <= c < c' < |labels| ==> multi[labels[c]].name != multi[labels[c']].name
    requires c < |labels|
    ensures CountName(Gather(multi, labels, picks), multi[labels[c]].name) == |picks[c]|
    decreases |labels|
  {
    var name := multi[labels[c]].name;
    var head := Block(multi[labels[0]], picks[0]);
    var tailLabels, tailPicks := labels[1..], picks[1..];
    var rest := Gather(multi, tailLabels, tailPicks);
    assert Gather(multi, labels, picks) == head + rest;
    CountNameAppend(head, rest, name);
    CountNameBlock(multi[labels[0]], picks[0], name);
    if c == 0 {
      forall c' | 0 <= c' < |tailLabels|
        ensures multi[tailLabels[c']].name != name
      {
        assert tailLabels[c'] == labels[c' + 1];
      }
      GatherOtherName(multi, tailLabels, tailPicks, name);
      assert CountName(rest, name) == 0;
    } else {
      assert tailLabels[c - 1] == labels[c] && tailPicks[c - 1] == picks[c];
      assert multi[labels[0]].name != name;
      forall a, b | 0 <= a < b < |tailLabels|
        ensures multi[tailLabels[a]].name != multi[tailLabels[b]].name
      {
        assert tailLabels[a] == labels[a + 1] && tailLabels[b] == labels[b + 1];
      }
      GatherCount(multi, tailLabels, tailPicks, c - 1);
      assert CountName(rest, name) == |picks[c]|;
    }
  }

  /** The correct answer: entries of 2 to 4 labels that have more than one
      box (when the record is eligible), each label contributing
      `min(len(bboxes), 3)` of its own boxes. */
  function Target(objs: Objs, d: TargetDraw): (r: seq<Entry>)
    requires ValidTargetDraw(objs, d)
    ensures forall i :: 0 <= i < |r| ==>
      exists g :: g in objs && |g.boxes| > 1 && g.name == r[i].name && r[i].box in g.boxes
    ensures DistinctLabels(objs) ==> forall c :: 0 <= c < d.size ==>
      CountName(r, MultiGroups(objs)[d.labels[c]].name) == Take(MultiGroups(objs)[d.labels[c]])
    ensures FromLabels(MultiGroups(objs), d.labels, r)
    ensures CheckEligible(objs) ==> 2 <= d.size <= Min(4, |MultiGroups(objs)|)
    ensures |MultiGroups(objs)| > 0 ==> |r| >= 2
  {
    TargetNonEmpty(objs, d);
    TargetFromMultiGroups(objs, d);
    TargetCounts(objs, d);
    Gather(MultiGroups(objs), d.labels, d.picks)
  }

  lemma TargetNonEmpty(objs: Objs, d: TargetDraw)
    requires ValidTargetDraw(objs, d)
    ensures |MultiGroups(objs)| > 0 ==> |Gather(MultiGroups(objs), d.labels, d.picks)| >= 2
  {
    var multi := MultiGroups(objs);
    if |multi| > 0 {
      assert multi[d.labels[0]] in multi;
      assert |Block(multi[d.labels[0]], d.picks[0])| >= 2;
    }
  }

  lemma TargetFromMultiGroups(objs: Objs, d: TargetDraw)
    requires ValidTargetDraw(objs, d)
    ensures FromLabels(MultiGroups(objs), d.labels, Gather(MultiGroups(objs), d.labels, d.picks))
    ensures var r := Gather(MultiGroups(objs), d.labels, d.picks);
      forall i :: 0 <= i < |r| ==>
        exists g :: g in objs && |g.boxes| > 1 && g.name == r[i].name && r[i].box in g.boxes
  {
    var multi := MultiGroups(objs);
    var r := Gather(multi, d.labels, d.picks);
    GatherFromLabels(multi, d.labels, d.picks);
    assert FromLabels(multi, d.labels, r);
    forall i | 0 <= i < |r|
      ensures exists g :: g in objs && |g.boxes| > 1 && g.name == r[i].name && r[i].box in g.boxes
    {
      var c :| 0 <= c < |d.labels| && r[i].name == multi[d.labels[c]].name && r[i].box in multi[d.labels[c]].boxes;
      assert multi[d.labels[c]] in multi;
    }
  }

  lemma TargetCounts(objs: Objs, d: TargetDraw)
    requires ValidTargetDraw(objs, d)
    ensures DistinctLabels(objs) ==> forall c :: 0 <= c < d.size ==>
      CountName(Gather(MultiGroups(objs), d.labels, d.picks), MultiGroups(objs)[d.labels[c]].name)
        == Take(MultiGroups(objs)[d.labels[c]])
  {
    var multi := MultiGroups(objs);
    if DistinctLabels(objs) {
      forall c | 0 <= c < d.size
        ensures CountName(Gather(multi, d.labels, d.picks), multi[d.labels[c]].name) == Take(multi[d.labels[c]])
      {
        GatherCount(multi, d.labels, d.picks, c);
      }
    }
  }

  /** The labels the question names, in sampled order. */
  function ChosenNames(objs: Objs, d: TargetDraw): (r: seq<string>)
    requires ValidTargetDraw(objs, d)
    ensures |r| == d.size
    ensures forall i :: 0 <= i < |r| ==> r[i] == MultiGroups(objs)[d.labels[i]].name
  {
    var multi := MultiGroups(objs);
    seq(d.size, i requires 0 <= i < d.size => multi[d.labels[i]].name)
  }

  /** `extra_pool`: every `(name, bbox)` of the record, in record order. */
  function ExtraPool(objs: Objs): (r: seq<Entry>)
    ensures forall e :: e in r <==> HasBox(objs, e.name, e.box)
  {
    if |objs| == 0 then []
    else
      var g := objs[0];
      var head := seq(|g.boxes|, i requires 0 <= i < |g.boxes| => Entry(g.name, g.boxes[i]));
      assert forall e: Entry :: e in head <==> e.name == g.name && e.box in g.boxes by {
        forall e: Entry | e.name == g.name && e.box in g.boxes
          ensures e in head
        {
          var i :| 0 <= i < |g.boxes| && g.boxes[i] == e.box;
          assert head[i] == e;
        }
      }
      var r := head + ExtraPool(objs[1..]);
      assert forall e: Entry :: HasBox(objs, e.name, e.box) <==> (e.name == g.name && e.box in g.boxes) || HasBox(objs[1..], e.name, e.box) by {
        forall e: Entry | HasBox(objs, e.name, e.box)
          ensures (e.name == g.name && e.box in g.boxes) || HasBox(objs[1..], e.name, e.box)
        {
          var h :| h in objs && h.name == e.name && e.box in h.boxes;
          var k :| 0 <= k < |objs| && objs[k] == h;
          if k > 0 {
            assert objs[1..][k - 1] == h;
          }
        }
      }
      r
  }

  // ---------------------------------------------------------------------------
  // Candidate generation
  // ---------------------------------------------------------------------------

  /** One step of `_mutate_entries`, with the draws it consumes. */
  datatype Op =
    | Perturb(idx: nat, ref: nat, jitter: BoxDraw)
    | Drop(idx: nat)
    | Swap(i: nat, j: nat)
    | Add(from: nat)

  /** The draws of one `_mutate_entries` call: `op_count` operations and the final shuffle. */
  datatype MutationDraw = MutationDraw(ops: seq<Op>, order: seq<nat>)

  /** The operation is in the `operations` list built from the base and the pool. */
  predicate Offered(op: Op, baseLen: nat, poolLen: nat)
  {
    match op
    case Perturb(_, _, _) => true
    case Drop(_) => baseLen > 1
    case Swap(_, _) => baseLen > 1
    case Add(_) => poolLen > 0
  }

  /** The operation's index draws are ones `random` can produce on the current list. */
  predicate Fits(op: Op, entries: seq<Entry>, base: seq<Entry>, pool: seq<Entry>)
  {
    match op
    case Perturb(idx, ref, _) => |entries| > 0 && |base| > 0 ==> idx < |entries| && ref < |base|
    case Drop(idx) => |entries| > 1 ==> idx < |entries|
    case Swap(i, j) => |entries| > 1 ==> i < |entries| && j < |entries| && i != j
    case Add(k) => |pool| > 0 ==> k < |pool|
  }

  /** The swap branch: positions `i` and `j` exchange names and keep their boxes. */
  function SwapNames(entries: seq<Entry>, i: nat, j: nat): (r: seq<Entry>)
    requires i < |entries| && j < |entries| && i != j
    ensures BoxesOf(r) == BoxesOf(entries)
    ensures LabelsOf(r) == LabelsOf(entries)[i := entries[j].name][j := entries[i].name]
    ensures multiset(LabelsOf(r)) == multiset(LabelsOf(entries))
  {
    var r := entries[i := Entry(entries[j].name, entries[i].box)][j := Entry(entries[i].name, entries[j].box)];
    assert LabelsOf(r) == LabelsOf(entries)[i := entries[j].name][j := entries[i].name];
    r
  }

  /** One pass of the `for _ in range(op_count)` body; `None` is the
      IndexError of `random.choice(base_entries)` on an empty base. */
  function ApplyOp(entries: seq<Entry>, base: seq<Entry>, pool: seq<Entry>, op: Op): (r: Option<seq<Entry>>)
    requires Fits(op, entries, base, pool)
  {
    match op
    case Perturb(idx, ref, jitter) =>
      if |entries| == 0 then Some(entries)
      else if |base| == 0 then None
      else Some(entries[idx := Entry(entries[idx].name, RandomBox(base[ref].box, jitter))])
    case Drop(idx) =>
      if |entries| > 1 then Some(entries[..idx] + entries[idx + 1..]) else Some(entries)
    case Swap(i, j) =>
      if |entries| > 1 then Some(SwapNames(entries, i, j)) else Some(entries)
    case Add(k) =>
      if |pool| > 0 then Some(entries + [pool[k]]) else Some(entries)
  }

  predicate OpsFit(entries: seq<Entry>, base: seq<Entry>, pool: seq<Entry>, ops: seq<Op>)
    decreases |ops|
  {
    |ops| == 0 ||
    (Fits(ops[0], entries, base, pool) &&
     match ApplyOp(entries, base, pool, ops[0])
     case None => true
     case Some(next) => OpsFit(next, base, pool, ops[1..]))
  }

  /** The operations applied in turn; each changes the length by at most one
      and never empties a non-empty list. */
  function ApplyOps(entries: seq<Entry>, base: seq<Entry>, pool: seq<Entry>, ops: seq<Op>): (r: Option<seq<Entry>>)
    requires OpsFit(entries, base, pool, ops)
    ensures |base| > 0 ==> r.Some?
    ensures r.Some? ==> |entries| - |ops| <= |r.value| <= |entries| + |ops|
    ensures r.Some? && |entries| > 0 ==> |r.value| > 0
    decreases |ops|
  {
    if |ops| == 0 then Some(entries)
    else
      match ApplyOp(entries, base, pool, ops[0])
      case None => None
      case Some(next) => ApplyOps(next, base, pool, ops[1..])
  }

  predicate ValidMutationDraw(base: seq<Entry>, pool: seq<Entry>, m: MutationDraw)
  {
    && 1 <= |m.ops| <= 2
    && (forall k :: 0 <= k < |m.ops| ==> Offered(m.ops[k], |base|, |pool|))
    && OpsFit(base, base, pool, m.ops)
    && match ApplyOps(base, base, pool, m.ops)
       case None => true
       case Some(entries) => IsPermutation(m.order, |entries|)
  }

  /** `_mutate_entries(base, extra_pool)`. On a non-empty base it always
      returns a non-empty list whose length is within 2 of the base's. */
  function MutateEntries(base: seq<Entry>, pool: seq<Entry>, m: MutationDraw): (r: Option<seq<Entry>>)
    requires ValidMutationDraw(base, pool, m)
    ensures |base| > 0 ==> r.Some? && 0 < |r.value| && |base| - 2 <= |r.value| <= |base| + 2
  {
    match ApplyOps(base, base, pool, m.ops)
    case None => None
    case Some(entries) => Some(Select(entries, m.order))
  }

  /** The draws of one `_fallback_entries` call. */
  datatype FallbackDraw = FallbackDraw(idx: nat, jitter: BoxDraw, order: seq<nat>)

  predicate ValidFallbackDraw(base: seq<Entry>, f: FallbackDraw)
  {
    |base| > 0 ==> f.idx < |base| && IsPermutation(f.order, |base|)
  }

  /** `_fallback_entries(base)`: re-jitter the box of one entry, then
      shuffle. `None` is the ValueError of `randrange(0)` on an empty base. */
  function FallbackEntries(base: seq<Entry>, f: FallbackDraw): (r: Option<seq<Entry>>)
    requires ValidFallbackDraw(base, f)
    ensures r.None? <==> |base| == 0
    ensures r.Some? ==> |r.value| == |base|
    ensures r.Some? ==> multiset(LabelsOf(r.value)) == multiset(LabelsOf(base))
    ensures r.Some? ==> (multiset(r.value) ==
      multiset(base) - multiset{base[f.idx]} + multiset{Entry(base[f.idx].name, RandomBox(base[f.idx].box, f.jitter))})
  {
    if |base| == 0 then None
    else
      var changed := base[f.idx := Entry(base[f.idx].name, RandomBox(base[f.idx].box, f.jitter))];
      var r := Select(changed, f.order);
      PermutationKeepsMultiset(changed, f.order);
      PermutationKeepsMultiset(LabelsOf(changed), f.order);
      assert LabelsOf(r) == Select(LabelsOf(changed), f.order);
      assert LabelsOf(changed) == LabelsOf(base);
      Some(r)
  }

  // ---------------------------------------------------------------------------
  // The distractor loops
  // ---------------------------------------------------------------------------

  type Pool = Dedup.Collection<seq<Entry>, multiset<SigEntry>>

  /** `add_candidate`: non-empty candidates with an unused signature. */
  function AddCandidate(c: Pool, cand: seq<Entry>): Pool
  {
    Dedup.Add(c, cand, Signature, |cand| > 0)
  }

  /** Everything accepted is non-empty and signature-distinct from the
      target and from each other. */
  ghost predicate Sound(c: Pool, target: seq<Entry>)
  {
    Dedup.Valid(c, Signature(target), Signature)
    && forall i :: 0 <= i < |c.accepted| ==> |c.accepted[i]| > 0
  }

  lemma AddCandidateSound(c: Pool, target: seq<Entry>, cand: seq<Entry>)
    requires Sound(c, target)
    ensures Sound(AddCandidate(c, cand), target)
  {
    Dedup.AddKeepsValid(c, cand, Signature, |cand| > 0, Signature(target));
  }

  const MutationAttempts: nat := 100

  /** Up to a hundred mutation attempts, stopping early once three
      distractors are accepted (grounding/format/detect_multi_object_formatter.py:77-81). */
  function RunMutations(c: Pool, base: seq<Entry>, pool: seq<Entry>, draws: seq<MutationDraw>): (r: Result<Pool, FormatError>)
    requires forall k :: 0 <= k < |draws| ==> ValidMutationDraw(base, pool, draws[k])
    requires |c.accepted| <= 3
    ensures |base| > 0 ==> r.Success?
    ensures r.Success? ==> |c.accepted| <= |r.value.accepted| <= 3
    ensures r.Success? && Sound(c, base) ==> Sound(r.value, base)
    decreases |draws|
  {
    if |c.accepted| >= 3 || |draws| == 0 then Success(c)
    else
      match MutateEntries(base, pool, draws[0])
      case None => Failure(EmptyChoice)
      case Some(cand) =>
        assert Sound(c, base) ==> Sound(AddCandidate(c, cand), base) by {
          if Sound(c, base) {
            AddCandidateSound(c, base, cand);
          }
        }
        RunMutations(AddCandidate(c, cand), base, pool, draws[1..])
  }

  /** Offers fallback candidates until three distractors are accepted
      (grounding/format/detect_multi_object_formatter.py:83-85). The source
      loop has no bound; here it is cut off when the draws run out. */
  function RunFallbacks(c: Pool, base: seq<Entry>, draws: seq<FallbackDraw>): (r: Result<Pool, FormatError>)
    requires forall k :: 0 <= k < |draws| ==> ValidFallbackDraw(base, draws[k])
    requires |c.accepted| <= 3
    ensures r.Success? ==> |r.value.accepted| == 3
    ensures r.Success? && Sound(c, base) ==> Sound(r.value, base)
    ensures |base| > 0 ==> r.Success? || r.error == DrawsExhausted
    decreases |draws|
  {
    if |c.accepted| >= 3 then Success(c)
    else if |draws| == 0 then Failure(DrawsExhausted)
    else
      match FallbackEntries(base, draws[0])
      case None => Failure(EmptyRange)
      case Some(cand) =>
        assert Sound(c, base) ==> Sound(AddCandidate(c, cand), base) by {
          if Sound(c, base) {
            AddCandidateSound(c, base, cand);
          }
        }
        RunFallbacks(AddCandidate(c, cand), base, draws[1..])
  }

  /** All the draws of one `format` call. */
  datatype Draws = Draws(
    target: TargetDraw,
    mutations: seq<MutationDraw>,
    fallbacks: seq<FallbackDraw>,
    order: seq<nat>)  // `random.sample(distractors, 3)` of exactly three distractors

  predicate ValidDraws(objs: Objs, d: Draws)
  {
    && ValidTargetDraw(objs, d.target)
    && |d.mutations| == MutationAttempts
    && (forall k :: 0 <= k < |d.mutations| ==>
          ValidMutationDraw(Target(objs, d.target), ExtraPool(objs), d.mutations[k]))
    && (forall k :: 0 <= k < |d.fallbacks| ==> ValidFallbackDraw(Target(objs, d.target), d.fallbacks[k]))
    && IsPermutation(d.order, 3)
  }

  /** A correct answer with exactly three distractors. */
  datatype Bundle = Bundle(names: seq<string>, target: seq<Entry>, distractors: seq<seq<Entry>>)

  /** The candidate search of `format`: target, mutation loop, fallback
      loop, sampling of the three distractors. */
  function Synthesize(objs: Objs, d: Draws): (r: Result<Bundle, FormatError>)
    requires ValidDraws(objs, d)
    ensures r.Success? ==> r.value.target == Target(objs, d.target) && r.value.names == ChosenNames(objs, d.target)
    ensures r.Success? ==> |r.value.distractors| == 3
    ensures r.Success? ==> forall i :: 0 <= i < 3 ==> |r.value.distractors[i]| > 0
    ensures r.Success? ==> forall i :: 0 <= i < 3 ==>
      Signature(r.value.distractors[i]) != Signature(r.value.target)
    ensures r.Success? ==> forall i, j :: 0 <= i < j < 3 ==>
      Signature(r.value.distractors[i]) != Signature(r.value.distractors[j])
    ensures CheckEligible(objs) ==> r.Success? || r.error == DrawsExhausted
  {
    var target := Target(objs, d.target);
    var start: Pool := Dedup.Start(Signature(target));
    Dedup.StartValid(Signature(target), Signature);
    var mutated :- RunMutations(start, target, ExtraPool(objs), d.mutations);
    var filled :- RunFallbacks(mutated, target, d.fallbacks);
    var picked := Select(filled.accepted, d.order);
    Dedup.SampleDistinct(filled, Signature(target), Signature, d.order);
    Success(Bundle(ChosenNames(objs, d.target), target, picked))
  }

  /** Three non-empty entry lists with pairwise distinct signatures, none
      of them the target's. */
  ghost predicate DistinctDistractors(target: seq<Entry>, ds: seq<seq<Entry>>)
  {
    && |ds| == 3
    && (forall i :: 0 <= i < 3 ==> |ds[i]| > 0 && Signature(ds[i]) != Signature(target))
    && (forall i, j :: 0 <= i < j < 3 ==> Signature(ds[i]) != Signature(ds[j]))
  }

  /** `texts` renders, in order, three distinct distractors of `target`. */
  ghost predicate DistractorTexts(target: seq<Entry>, texts: seq<string>)
  {
    exists ds: seq<seq<Entry>> :: DistinctDistractors(target, ds) && texts == Map(FormatEntries, ds)
  }

  /** `format(data)`: the question naming the chosen labels and four
      rendered choices, the correct answer first. */
  function Format(rec: Record, d: Draws): (r: Result<Question<string>, FormatError>)
    requires ValidDraws(rec.objs, d)
    ensures r.Success? ==> |r.value.choices| == 4
    ensures r.Success? ==> r.value.choices[0] == FormatEntries(Target(rec.objs, d.target))
    ensures r.Success? ==> r.value.question == TemplateHead + Join(ChosenNames(rec.objs, d.target), ", ") + TemplateTail
    ensures r.Success? ==> (r.value.questionType == QuestionType
      && r.value.sourceDataset == rec.sourceDataset && r.value.sourceId == rec.sourceId && r.value.image == rec.image)
    ensures CheckEligible(rec.objs) ==> r.Success? || r.error == DrawsExhausted
  {
    var b :- Synthesize(rec.objs, d);
    var choices := [FormatEntries(b.target)] + Map(FormatEntries, b.distractors);
    Success(Question(rec.sourceDataset, rec.sourceId, rec.image,
                     TemplateHead + Join(b.names, ", ") + TemplateTail, choices, QuestionType))
  }

  /** The three other choices render entry lists that are not the target's
      under the signature, nor each other's. */
  lemma FormatDistractors(rec: Record, d: Draws)
    requires ValidDraws(rec.objs, d)
    ensures var r := Format(rec, d);
      r.Success? ==> DistractorTexts(Target(rec.objs, d.target), r.value.choices[1..])
  {
    var s := Synthesize(rec.objs, d);
    if s.Success? {
      var b := s.value;
      var choices := Format(rec, d).value.choices;
      assert choices == [FormatEntries(b.target)] + Map(FormatEntries, b.distractors);
      assert choices[1..] == Map(FormatEntries, b.distractors);
      assert DistinctDistractors(b.target, b.distractors);
    }
  }
}

=== FILE: permutations.dfy ===
/** Index draws of Python's `random` module: `random.sample(range(n), k)`
    yields `k` distinct indices below `n`, and `random.shuffle` of a list of
    length `n` reorders it by a permutation of `0..n-1`. */
module Permutations {

  /** `idx` could be returned by `random.sample(range(n), k)`. */
  predicate IsSample(idx: seq<nat>, k: nat, n: nat)
  {
    && |idx| == k
    && (forall i :: 0 <= i < |idx| ==> idx[i] < n)
    && (forall i, j :: 0 <= i < j < |idx| ==> idx[i] != idx[j])
  }

  /** `perm` reorders a list of length `n`: position `i` receives element `perm[i]`. */
  predicate IsPermutation(perm: seq<nat>, n: nat)
  {
    IsSample(perm, n, n)
  }

  /** The elements of `s` at the positions `idx`, in that order. */
  function Select<T>(s: seq<T>, idx: seq<nat>): (r: seq<T>)
    requires forall i :: 0 <= i < |idx| ==> idx[i] < |s|
    ensures |r| == |idx|
    ensures forall i :: 0 <= i < |idx| ==> r[i] == s[idx[i]]
  {
    seq(|idx|, i requires 0 <= i < |idx| => s[idx[i]])
  }

  /** A sequence of distinct numbers below `m` has at most `m` elements. */
  lemma {:induction false} DistinctBounded(s: seq<nat>, m: nat)
    requires IsSample(s, |s|, m)
    ensures |s| <= m
    decreases |s|
  {
    if |s| > 0 {
      var v := s[|s| - 1];
      var init := s[..|s| - 1];
      var squeezed := seq(|init|, i requires 0 <= i < |init| => if init[i] > v then init[i] - 1 else init[i]);
      forall a, b | 0 <= a < b < |squeezed|
        ensures squeezed[a] != squeezed[b]
      {
        assert s[a] != s[b];
      }
      forall a | 0 <= a < |squeezed|
        ensures squeezed[a] < m - 1
      {
        assert s[a] != s[|s| - 1];
      }
      DistinctBounded(squeezed, m - 1);
    }
  }

  /** Pigeonhole: a permutation of `0..n-1` takes every value below `n`. */
  lemma Covers(perm: seq<nat>, n: nat, j: nat)
    requires IsPermutation(perm, n)
    requires j < n
    ensures exists i :: 0 <= i < n && perm[i] == j
  {
    if forall i :: 0 <= i < n ==> perm[i] != j {
      var squeezed := seq(n, i requires 0 <= i < n => if perm[i] > j then perm[i] - 1 else perm[i]);
      forall a, b | 0 <= a < b < n
        ensures squeezed[a] != squeezed[b]
      {
        assert perm[a] != perm[b];
      }
      DistinctBounded(squeezed, n - 1);
      assert false;
    }
  }

  /** The position a permutation sends to original index `j`. */
  function PositionOf(perm: seq<nat>, n: nat, j: nat): (k: nat)
    requires IsPermutation(perm, n) && j < n
    ensures k < n && perm[k] == j
    ensures forall i :: 0 <= i < n && perm[i] == j ==> i == k
  {
    Covers(perm, n, j);
    var k :| 0 <= k < n && perm[k] == j;
    k
  }

  /** Removing the entry `idx[k] == n` from a sample below `n + 1` leaves a
      sample below `n`. */
  lemma DropTop(idx: seq<nat>, n: nat, k: nat)
    requires IsSample(idx, |idx|, n + 1) && k < |idx| && idx[k] == n
    ensures IsSample(idx[..k] + idx[k + 1..], |idx| - 1, n)
  {
    var idx' := idx[..k] + idx[k + 1..];
    forall i | 0 <= i < |idx'|
      ensures idx'[i] == idx[if i < k then i else i + 1]
    {
    }
    forall i | 0 <= i < |idx'|
      ensures idx'[i] < n
    {
      var i' := if i < k then i else i + 1;
      assert idx[i'] != idx[k];
    }
    forall a, b | 0 <= a < b < |idx'|
      ensures idx'[a] != idx'[b]
    {
      var a' := if a < k then a else a + 1;
      var b' := if b < k then b else b + 1;
      assert idx[a'] != idx[b'];
    }
  }

  /** Selecting with one index removed drops that element of the selection. */
  lemma SelectDrop<T>(s: seq<T>, idx: seq<nat>, k: nat, rest: seq<nat>)
    requires |s| > 0 && k < |idx| && idx[k] == |s| - 1 && rest == idx[..k] + idx[k + 1..]
    requires forall i :: 0 <= i < |rest| ==> rest[i] < |s| - 1
    requires forall i :: 0 <= i < |idx| ==> idx[i] < |s|
    ensures multiset(Select(s, idx)) == multiset(Select(s[..|s| - 1], rest)) + multiset{s[|s| - 1]}
  {
    var r := Select(s, idx);
    var r' := Select(s[..|s| - 1], rest);
    assert r' == r[..k] + r[k + 1..];
    assert r == r[..k] + [r[k]] + r[k + 1..];
  }

  /** Selecting only indices below `|s| - 1` ignores the last element. */
  lemma SelectInit<T>(s: seq<T>, idx: seq<nat>)
    requires |s| > 0 && forall i :: 0 <= i < |idx| ==> idx[i] < |s| - 1
    ensures Select(s[..|s| - 1], idx) == Select(s, idx)
  {
  }

  /** Sampling draws without replacement: the sampled elements, with their
      multiplicities, are among the elements of `s`. */
  lemma {:induction false} SampleWithinMultiset<T>(s: seq<T>, idx: seq<nat>)
    requires IsSample(idx, |idx|, |s|)
    ensures multiset(Select(s, idx)) <= multiset(s)
    decreases |s|
  {
    var n := |s|;
    if n > 0 {
      var init := s[..n - 1];
      assert s == init + [s[n - 1]];
      if k :| 0 <= k < |idx| && idx[k] == n - 1 {
        DropTop(idx, n - 1, k);
        SampleWithinMultiset(init, idx[..k] + idx[k + 1..]);
        SelectDrop(s, idx, k, idx[..k] + idx[k + 1..]);
      } else {
        SampleWithinMultiset(init, idx);
        SelectInit(s, idx);
      }
    }
  }

  /** Reordering by a permutation keeps every element with its multiplicity. */
  lemma {:induction false} PermutationKeepsMultiset<T>(s: seq<T>, perm: seq<nat>)
    requires IsPermutation(perm, |s|)
    ensures multiset(Select(s, perm)) == multiset(s)
    decreases |s|
  {
    var n := |s|;
    if n > 0 {
      var k := PositionOf(perm, n, n - 1);
      DropTop(perm, n - 1, k);
      var init := s[..n - 1];
      PermutationKeepsMultiset(init, perm[..k] + perm[k + 1..]);
      SelectDrop(s, perm, k, perm[..k] + perm[k + 1..]);
      assert s == init + [s[n - 1]];
    }
  }

  function Map<A, B>(f: A -> B, s: seq<A>): (r: seq<B>)
    ensures |r| == |s| && forall i :: 0 <= i < |s| ==> r[i] == f(s[i])
  {
    seq(|s|, i requires 0 <= i < |s| => f(s[i]))
  }

  lemma MapAppend<A, B>(f: A -> B, a: seq<A>, b: seq<A>)
    ensures Map(f, a + b) == Map(f, a) + Map(f, b)
  {
  }

  lemma MultisetCancel<T>(x: multiset<T>, y: multiset<T>, e: T)
    requires x + multiset{e} == y + multiset{e}
    ensures x == y
  {
    forall z
      ensures x[z] == y[z]
    {
      assert (x + multiset{e})[z] == (y + multiset{e})[z];
    }
  }

  /** Removing the same element from two sequences with the same elements
      leaves two sequences with the same elements. */
  lemma RemoveMatching<T>(a: seq<T>, b: seq<T>, k: nat)
    requires multiset(a) == multiset(b)
    requires 0 < |a| && k < |b| && b[k] == a[0]
    ensures multiset(a[1..]) == multiset(b[..k] + b[k + 1..])
  {
    assert a == [a[0]] + a[1..];
    assert b == b[..k] + [b[k]] + b[k + 1..];
    calc {
      multiset(a[1..]) + multiset{a[0]};
      multiset(a);
      multiset(b);
      multiset(b[..k]) + multiset{a[0]} + multiset(b[k + 1..]);
      multiset(b[..k] + b[k + 1..]) + multiset{a[0]};
    }
    MultisetCancel(multiset(a[1..]), multiset(b[..k] + b[k + 1..]), a[0]);
  }

  /** Mapping a function over two sequences with the same elements gives two
      sequences with the same elements. */
  lemma {:induction false} MapKeepsMultisetEquality<A, B>(f: A -> B, a: seq<A>, b: seq<A>)
    requires multiset(a) == multiset(b)
    ensures multiset(Map(f, a)) == multiset(Map(f, b))
    decreases |a|
  {
    if |a| == 0 {
      assert |b| == |multiset(b)| == 0;
    } else {
      assert a[0] in multiset(b);
      var k :| 0 <= k < |b| && b[k] == a[0];
      var front, back := b[..k], b[k + 1..];
      RemoveMatching(a, b, k);
      MapKeepsMultisetEquality(f, a[1..], front + back);
      var fa, fb := Map(f, a), Map(f, b);
      var ff, fk := Map(f, front), Map(f, back);
      assert fa == [f(a[0])] + Map(f, a[1..]);
      assert fb == ff + [f(a[0])] + fk;
      assert Map(f, front + back) == ff + fk;
      calc {
        multiset(fa);
        multiset{f(a[0])} + multiset(ff + fk);
        multiset(ff) + multiset{f(a[0])} + multiset(fk);
        multiset(fb);
      }
    }
  }
}

=== FILE: results.dfy ===
/** Failure-compatible result types shared by every module of the model.
    A Python exception raised by the modelled code becomes a `Failure`. */
module Results {

  datatype Option<+T> = None | Some(value: T)

  datatype Result<+T, +E> = Success(value: T) | Failure(error: E) {

    predicate IsFailure() {
      Failure?
    }

    function PropagateFailure<U>(): Result<U, E>
      requires Failure?
    {
      Failure(error)
    }

    function Extract(): T
      requires Success?
    {
      value
    }
  }
}

=== FILE: single_box.dfy ===
/** grounding/format/detect_single_formatter.py: questions whose answer is
    the one box of a label that has exactly one box. Distractors are drawn
    from every other box of the record, padded with jittered copies of the
    answer box. */
module SingleBox {
  import opened Results
  import opened Text
  import opened Geometry
  import opened Permutations
  import opened Annotations

  const QuestionType: string := "detect_single"

  const TemplateHead: string := "Please detect the "
  const TemplateTail: string := " in this image and represent them using a single bounding box. Please provide the bounding box coordinates for the described object or area using the format [x1, y1, x2, y2]. Here, [x1, y1] represent the top-left coordinates and [x2, y2] the bottom-right coordinates within a normalized range of 0 to 1, where [0, 0] is the top-left corner and [1, 1] is the bottom-right corner of the image."

  predicate HasSingle(objs: Objs)
  {
    exists i :: 0 <= i < |objs| && |objs[i].boxes| == 1
  }

  /** `check_eligible`: the first label with exactly one box ends the scan. */
  function CheckEligible(objs: Objs): (r: bool)
    ensures r <==> HasSingle(objs)
  {
    if |objs| == 0 then false
    else if |objs[0].boxes| == 1 then true
    else
      var rest := CheckEligible(objs[1..]);
      assert HasSingle(objs[1..]) ==> HasSingle(objs) by {
        if HasSingle(objs[1..]) {
          var i :| 0 <= i < |objs[1..]| && |objs[1..][i].boxes| == 1;
          assert objs[i + 1] == objs[1..][i];
        }
      }
      rest
  }

  predicate DistinctNames(entries: seq<Entry>)
  {
    forall i, j :: 0 <= i < j < |entries| ==> entries[i].name != entries[j].name
  }

  /** The single-box labels with their box, and every box of the other labels. */
  datatype Split = Split(singles: seq<Entry>, others: seq<Box>)

  /** `e` pairs a label of `objs` with its one and only box. */
  predicate SingleIn(objs: Objs, e: Entry)
  {
    exists i :: 0 <= i < |objs| && objs[i] == LabelBoxes(e.name, [e.box])
  }

  /** The first loop of `format`: `all_single_objs` and `other_bboxes`. */
  function Partition(objs: Objs): (r: Split)
    ensures |r.singles| <= |objs|
  {
    if |objs| == 0 then Split([], [])
    else
      var g := objs[0];
      var rest := Partition(objs[1..]);
      assert forall i :: 1 <= i < |objs| ==> objs[i] == objs[1..][i - 1];
      if |g.boxes| == 1 then
        var e := Entry(g.name, g.boxes[0]);
        assert g == LabelBoxes(e.name, [e.box]);
        Split([e] + rest.singles, rest.others)
      else
        Split(rest.singles, g.boxes + rest.others)
  }

  /** Every single entry pairs a label with its only box. */
  lemma {:induction false} SinglesSound(objs: Objs, k: nat)
    requires k < |Partition(objs).singles|
    ensures SingleIn(objs, Partition(objs).singles[k])
    decreases |objs|
  {
    var g := objs[0];
    var singles, rest := Partition(objs).singles, Partition(objs[1..]).singles;
    if |g.boxes| == 1 && k == 0 {
      assert g == LabelBoxes(g.name, [g.boxes[0]]);
    } else {
      var k' := if |g.boxes| == 1 then k - 1 else k;
      assert singles[k] == rest[k'];
      SinglesSound(objs[1..], k');
      var i :| 0 <= i < |objs[1..]| && objs[1..][i] == LabelBoxes(rest[k'].name, [rest[k'].box]);
      assert objs[i + 1] == objs[1..][i];
    }
  }

  /** Every label with exactly one box yields a single entry. */
  lemma {:induction false} SinglesComplete(objs: Objs, i: nat)
    requires i < |objs| && |objs[i].boxes| == 1
    ensures Entry(objs[i].name, objs[i].boxes[0]) in Partition(objs).singles
    decreases |objs|
  {
    if i > 0 {
      assert objs[1..][i - 1] == objs[i];
      SinglesComplete(objs[1..], i - 1);
    }
  }

  /** Every box lands either among the single entries or among the others. */
  lemma {:induction false} PartitionMultiset(objs: Objs)
    ensures multiset(BoxesOf(Partition(objs).singles)) + multiset(Partition(objs).others) == multiset(AllBoxes(objs))
    decreases |objs|
  {
    if |objs| > 0 {
      PartitionMultiset(objs[1..]);
      PartitionStep(objs);
      assert AllBoxes(objs) == objs[0].boxes + AllBoxes(objs[1..]);
    }
  }

  /** One step of the partition loop moves the first label's boxes to one side. */
  lemma PartitionStep(objs: Objs)
    requires |objs| > 0
    ensures multiset(BoxesOf(Partition(objs).singles)) + multiset(Partition(objs).others)
      == multiset(objs[0].boxes) + multiset(BoxesOf(Partition(objs[1..]).singles)) + multiset(Partition(objs[1..]).others)
  {
    var g := objs[0];
    var rest := Partition(objs[1..]);
    if |g.boxes| == 1 {
      var e := Entry(g.name, g.boxes[0]);
      PartitionSingle(objs);
      BoxesOfCons(e, rest.singles);
      assert g.boxes == [e.box];
    } else {
      PartitionOther(objs);
    }
  }

  lemma PartitionSingle(objs: Objs)
    requires |objs| > 0 && |objs[0].boxes| == 1
    ensures Partition(objs) == Split([Entry(objs[0].name, objs[0].boxes[0])] + Partition(objs[1..]).singles, Partition(objs[1..]).others)
  {
  }

  lemma PartitionOther(objs: Objs)
    requires |objs| > 0 && |objs[0].boxes| != 1
    ensures Partition(objs) == Split(Partition(objs[1..]).singles, objs[0].boxes + Partition(objs[1..]).others)
  {
  }

  /** Distinct labels give single entries with distinct names. */
  lemma {:induction false} PartitionDistinct(objs: Objs)
    requires DistinctLabels(objs)
    ensures DistinctNames(Partition(objs).singles)
    decreases |objs|
  {
    if |objs| > 0 {
      var tail := objs[1..];
      assert DistinctLabels(tail) by {
        forall i, j | 0 <= i < j < |tail|
          ensures tail[i].name != tail[j].name
        {
          assert tail[i] == objs[i + 1] && tail[j] == objs[j + 1];
        }
      }
      PartitionDistinct(tail);
      var singles := Partition(objs).singles;
      var rest := Partition(tail).singles;
      if |objs[0].boxes| == 1 {
        forall j | 0 < j < |singles|
          ensures singles[0].name != singles[j].name
        {
          assert singles[j] == rest[j - 1];
          SinglesSound(tail, j - 1);
          var k :| 0 <= k < |tail| && tail[k] == LabelBoxes(rest[j - 1].name, [rest[j - 1].box]);
          assert objs[k + 1] == tail[k];
        }
        forall i, j | 0 < i < j < |singles|
          ensures singles[i].name != singles[j].name
        {
          assert singles[i] == rest[i - 1] && singles[j] == rest[j - 1];
        }
      }
    }
  }

  /** The boxes of the one-box labels other than the chosen one, in order
      (grounding/format/detect_single_formatter.py:36-38). */
  function OtherSingles(singles: seq<Entry>, name: string): (r: seq<Box>)
    ensures |r| <= |singles|
    ensures forall i :: 0 <= i < |singles| && singles[i].name != name ==> singles[i].box in r
  {
    if |singles| == 0 then []
    else
      var rest := OtherSingles(singles[1..], name);
      assert forall i :: 1 <= i < |singles| ==> singles[i] == singles[1..][i - 1];
      if singles[0].name != name then [singles[0].box] + rest else rest
  }

  /** With distinct labels, skipping the chosen label's name skips exactly
      its entry: the other singles and the chosen box are all the singles' boxes. */
  lemma {:induction false} OtherSinglesComplement(singles: seq<Entry>, k: nat)
    requires DistinctNames(singles) && k < |singles|
    ensures multiset(OtherSingles(singles, singles[k].name)) + multiset{singles[k].box}
      == multiset(BoxesOf(singles))
    decreases |singles|
  {
    var name := singles[k].name;
    var tail := singles[1..];
    var first := singles[0].box;
    BoxesOfFirst(singles);
    OtherSinglesCons(singles, name);
    if k == 0 {
      forall i | 0 <= i < |tail|
        ensures tail[i].name != name
      {
        assert singles[i + 1] == tail[i];
      }
      NoneSkipped(tail, name);
      assert OtherSingles(singles, name) == BoxesOf(tail);
      MultisetCons(first, BoxesOf(tail));
    } else {
      assert tail[k - 1] == singles[k];
      assert singles[0].name != name;
      DistinctNamesTail(singles);
      OtherSinglesComplement(tail, k - 1);
      assert OtherSingles(singles, name) == [first] + OtherSingles(tail, name);
      MultisetConsBoth(first, OtherSingles(tail, name), BoxesOf(tail), singles[k].box);
    }
  }

  lemma MultisetCons<T>(x: T, s: seq<T>)
    ensures multiset([x] + s) == multiset(s) + multiset{x}
  {
  }

  /** Adding the same element in front of both sides keeps a multiset equation. */
  lemma MultisetConsBoth<T>(x: T, part: seq<T>, whole: seq<T>, y: T)
    requires multiset(part) + multiset{y} == multiset(whole)
    ensures multiset([x] + part) + multiset{y} == multiset([x] + whole)
  {
  }

  lemma DistinctNamesTail(entries: seq<Entry>)
    requires |entries| > 0 && DistinctNames(entries)
    ensures DistinctNames(entries[1..])
  {
    forall i, j | 0 <= i < j < |entries| - 1
      ensures entries[1..][i].name != entries[1..][j].name
    {
      assert entries[1..][i] == entries[i + 1] && entries[1..][j] == entries[j + 1];
    }
  }

  lemma OtherSinglesCons(singles: seq<Entry>, name: string)
    requires |singles| > 0
    ensures OtherSingles(singles, name) ==
      (if singles[0].name != name then [singles[0].box] else []) + OtherSingles(singles[1..], name)
  {
  }

  /** When no entry carries `name`, every box is kept in order. */
  lemma {:induction false} NoneSkipped(singles: seq<Entry>, name: string)
    requires forall i :: 0 <= i < |singles| ==> singles[i].name != name
    ensures OtherSingles(singles, name) == BoxesOf(singles)
    decreases |singles|
  {
    if |singles| > 0 {
      var tail := singles[1..];
      assert forall i :: 0 <= i < |tail| ==> tail[i] == singles[i + 1];
      NoneSkipped(tail, name);
      BoxesOfFirst(singles);
    }
  }

  const PoolTarget: nat := 8

  /** Appends jittered copies of the answer box until the pool holds eight
      boxes (grounding/format/detect_single_formatter.py:45-46), one box
      draw per appended box. */
  function Pad(pool: seq<Box>, bbox: Box, draws: seq<BoxDraw>): (r: seq<Box>)
    requires |pool| + |draws| >= PoolTarget
    ensures |r| == if |pool| >= PoolTarget then |pool| else PoolTarget
    ensures r[..|pool|] == pool
    ensures forall k :: |pool| <= k < |r| ==> Valid(r[k]) && r[k] == RandomBox(bbox, draws[k - |pool|])
    decreases PoolTarget - |pool|
  {
    if |pool| >= PoolTarget then pool
    else
      var next := pool + [RandomBox(bbox, draws[0])];
      var r := Pad(next, bbox, draws[1..]);
      assert r[..|pool|] == next[..|pool|];
      assert r[|pool|] == next[|pool|];
      r
  }

  /** All the draws of one `format` call. */
  datatype Draws = Draws(
    pick: nat,             // `random.choice(all_single_objs)`
    pads: seq<BoxDraw>,    // one `random_bbox` per padding box
    sample: seq<nat>)      // `random.sample(other_bboxes, 3)`

  /** The distractor pool before padding: the other labels' boxes, then the
      other single boxes. */
  function Pool(objs: Objs, pick: nat): seq<Box>
    requires pick < |Partition(objs).singles|
  {
    var s := Partition(objs);
    s.others + OtherSingles(s.singles, s.singles[pick].name)
  }

  /** With distinct labels the pool and the answer box are, together, every
      box of the record exactly once. */
  lemma PoolComplement(objs: Objs, pick: nat)
    requires DistinctLabels(objs) && pick < |Partition(objs).singles|
    ensures multiset(Pool(objs, pick)) + multiset{Partition(objs).singles[pick].box} == multiset(AllBoxes(objs))
  {
    var s := Partition(objs);
    PartitionDistinct(objs);
    PartitionMultiset(objs);
    OtherSinglesComplement(s.singles, pick);
  }

  function Chosen(objs: Objs, pick: nat): Entry
    requires pick < |Partition(objs).singles|
  {
    Partition(objs).singles[pick]
  }

  predicate ValidDraws(objs: Objs, d: Draws)
  {
    |Partition(objs).singles| > 0 ==>
      && d.pick < |Partition(objs).singles|
      && |Pool(objs, d.pick)| + |d.pads| >= PoolTarget
      && IsSample(d.sample, 3, |Pad(Pool(objs, d.pick), Chosen(objs, d.pick).box, d.pads)|)
  }

  /** `format(data)`: the article-stripped label in the question and the
      answer box first among four choices. The choices are kept as boxes;
      their `str()` rendering is not modelled. */
  function Format(rec: Record, d: Draws): (r: Result<Question<Box>, FormatError>)
    requires ValidDraws(rec.objs, d)
    ensures r.Success? <==> HasSingle(rec.objs)
    ensures r.Failure? ==> r.error == EmptyChoice
    ensures r.Success? ==> |Partition(rec.objs).singles| > 0 && d.pick < |Partition(rec.objs).singles|
    ensures r.Success? ==> (
      var e := Chosen(rec.objs, d.pick);
      && SingleIn(rec.objs, e)
      && r.value.question == TemplateHead + StripArticle(e.name) + TemplateTail
      && |r.value.choices| == 4
      && r.value.choices[0] == e.box
      && multiset(r.value.choices[1..]) <= multiset(Pad(Pool(rec.objs, d.pick), e.box, d.pads)))
    ensures r.Success? ==> (r.value.questionType == QuestionType
      && r.value.sourceDataset == rec.sourceDataset && r.value.sourceId == rec.sourceId && r.value.image == rec.image)
  {
    var s := Partition(rec.objs);
    if |s.singles| == 0 then
      assert !HasSingle(rec.objs) by {
        forall i | 0 <= i < |rec.objs|
          ensures |rec.objs[i].boxes| != 1
        {
          if |rec.objs[i].boxes| == 1 {
            SinglesComplete(rec.objs, i);
          }
        }
      }
      Failure(EmptyChoice)
    else
      var e := s.singles[d.pick];
      SinglesSound(rec.objs, d.pick);
      assert HasSingle(rec.objs) by {
        var i :| 0 <= i < |rec.objs| && rec.objs[i] == LabelBoxes(e.name, [e.box]);
        assert |rec.objs[i].boxes| == 1;
      }
      var padded := Pad(Pool(rec.objs, d.pick), e.box, d.pads);
      var distractors := Select(padded, d.sample);
      SampleWithinMultiset(padded, d.sample);
      var choices := [e.box] + distractors;
      assert choices[1..] == distractors;
      Success(Question(rec.sourceDataset, rec.sourceId, rec.image,
        TemplateHead + StripArticle(e.name) + TemplateTail, choices, QuestionType))
  }
}

=== FILE: text.dfy ===
/** String helpers with the semantics of the Python string methods the
    pipeline uses: `sep.join`, `str.lower` on ASCII letters, `str.strip`,
    `str.rstrip`, `str.startswith` and the leading-article removal loop
    shared by the single-box and multi-box formatters. */
module Text {

  /** `sep.join(parts)` */
  function Join(parts: seq<string>, sep: string): string
  {
    if |parts| == 0 then ""
    else if |parts| == 1 then parts[0]
    else parts[0] + sep + Join(parts[1..], sep)
  }

  /** `needle` occurs in `hay` starting at index `i`. */
  predicate OccursAt(needle: string, hay: string, i: int)
  {
    0 <= i && i + |needle| <= |hay| && hay[i..i + |needle|] == needle
  }

  /** Python's `needle in hay` for strings. */
  ghost predicate IsInfix(needle: string, hay: string)
  {
    exists i :: OccursAt(needle, hay, i)
  }

  /** An occurrence stays an occurrence, shifted, after a prefix is added. */
  lemma OccursAfter(needle: string, pre: string, hay: string, i: int)
    requires OccursAt(needle, hay, i)
    ensures OccursAt(needle, pre + hay, |pre| + i)
  {
    var whole := pre + hay;
    forall k | 0 <= k < |needle|
      ensures whole[|pre| + i + k] == needle[k]
    {
      assert needle[k] == hay[i..i + |needle|][k];
    }
    assert whole[|pre| + i..|pre| + i + |needle|] == needle;
  }

  /** An occurrence stays an occurrence after a suffix is added. */
  lemma OccursBefore(needle: string, hay: string, post: string, i: int)
    requires OccursAt(needle, hay, i)
    ensures OccursAt(needle, hay + post, i)
  {
    var whole := hay + post;
    forall k | 0 <= k < |needle|
      ensures whole[i + k] == needle[k]
    {
      assert needle[k] == hay[i..i + |needle|][k];
    }
    assert whole[i..i + |needle|] == needle;
  }

  lemma InfixOfConcat(needle: string, pre: string, mid: string, post: string)
    requires IsInfix(needle, mid)
    ensures IsInfix(needle, pre + mid + post)
  {
    var i :| OccursAt(needle, mid, i);
    OccursAfter(needle, pre, mid, i);
    OccursBefore(needle, pre + mid, post, |pre| + i);
  }

  /** `mid` occurs in `pre + mid + post` right after `pre`. */
  lemma InfixMiddle(pre: string, mid: string, post: string)
    ensures IsInfix(mid, pre + mid + post)
  {
    assert OccursAt(mid, mid, 0);
    InfixOfConcat(mid, pre, mid, post);
  }

  lemma InfixTransitive(a: string, b: string, c: string)
    requires IsInfix(a, b) && IsInfix(b, c)
    ensures IsInfix(a, c)
  {
    var i :| OccursAt(a, b, i);
    var j :| OccursAt(b, c, j);
    assert c[j..j + |b|] == b;
    forall k | 0 <= k < |a|
      ensures c[j + i + k] == a[k]
    {
      assert c[j + i + k] == c[j..j + |b|][i + k];
      assert a[k] == b[i..i + |a|][k];
    }
    assert OccursAt(a, c, j + i);
  }

  /** Every part of a join occurs in the joined string. */
  lemma {:induction false} JoinContainsPart(parts: seq<string>, sep: string, k: nat)
    requires k < |parts|
    ensures IsInfix(parts[k], Join(parts, sep))
    decreases |parts|
  {
    var joined := Join(parts, sep);
    if |parts| == 1 {
      assert joined[0..|parts[0]|] == parts[0];
      assert OccursAt(parts[0], joined, 0);
    } else {
      var rest := Join(parts[1..], sep);
      assert joined == parts[0] + sep + rest;
      if k == 0 {
        assert joined[0..|parts[0]|] == parts[0];
        assert OccursAt(parts[0], joined, 0);
      } else {
        JoinContainsPart(parts[1..], sep, k - 1);
        assert parts[1..][k - 1] == parts[k];
        var i :| OccursAt(parts[k], rest, i);
        OccursAfter(parts[k], parts[0] + sep, rest, i);
      }
    }
  }

  /** Joining two non-empty halves equals joining each half and gluing the
      results with one separator: the join keeps the given order. */
  lemma {:induction false} JoinAppend(a: seq<string>, b: seq<string>, sep: string)
    requires |a| > 0 && |b| > 0
    ensures Join(a + b, sep) == Join(a, sep) + sep + Join(b, sep)
    decreases |a|
  {
    if |a| == 1 {
      assert (a + b)[1..] == b;
    } else {
      assert (a + b)[1..] == a[1..] + b;
      JoinAppend(a[1..], b, sep);
    }
  }

  /** `str.lower` restricted to one character; only A-Z change. */
  function Lower(c: char): (r: char)
    ensures 'A' <= c <= 'Z' ==> 'a' <= r <= 'z' && r as int - c as int == 32
    ensures !('A' <= c <= 'Z') ==> r == c
  {
    if 'A' <= c <= 'Z' then (c as int + 32) as char else c
  }

  function LowerString(s: string): (r: string)
    ensures |r| == |s|
    ensures forall i :: 0 <= i < |s| ==> r[i] == Lower(s[i])
  {
    seq(|s|, i requires 0 <= i < |s| => Lower(s[i]))
  }

  /** Lowercasing commutes with joining when the separator has no upper-case letter. */
  lemma {:induction false} LowerJoin(parts: seq<string>, sep: string)
    requires LowerString(sep) == sep
    ensures LowerString(Join(parts, sep)) == Join(seq(|parts|, i requires 0 <= i < |parts| => LowerString(parts[i])), sep)
    decreases |parts|
  {
    var lowered := seq(|parts|, i requires 0 <= i < |parts| => LowerString(parts[i]));
    if |parts| == 0 {
    } else if |parts| == 1 {
    } else {
      LowerJoin(parts[1..], sep);
      assert lowered[1..] == seq(|parts[1..]|, i requires 0 <= i < |parts[1..]| => LowerString(parts[1..][i]));
      LowerConcat(parts[0] + sep, Join(parts[1..], sep));
      LowerConcat(parts[0], sep);
    }
  }

  lemma LowerConcat(a: string, b: string)
    ensures LowerString(a + b) == LowerString(a) + LowerString(b)
  {
  }

  /** The whitespace characters stripped by `str.strip` (ASCII subset). */
  predicate IsSpace(c: char)
  {
    c == ' ' || c == '\t' || c == '\n' || c == '\r' || c == '\U{B}' || c == '\U{C}'
  }

  /** `str.rstrip()` */
  function RStrip(s: string): (r: string)
    ensures |r| <= |s| && r == s[..|r|]
    ensures |r| > 0 ==> !IsSpace(r[|r| - 1])
    ensures forall i :: |r| <= i < |s| ==> IsSpace(s[i])
  {
    if |s| > 0 && IsSpace(s[|s| - 1]) then RStrip(s[..|s| - 1]) else s
  }

  /** `str.lstrip()` */
  function LStrip(s: string): (r: string)
    ensures |r| <= |s| && r == s[|s| - |r|..]
    ensures |r| > 0 ==> !IsSpace(r[0])
    ensures forall i :: 0 <= i < |s| - |r| ==> IsSpace(s[i])
  {
    if |s| > 0 && IsSpace(s[0]) then LStrip(s[1..]) else s
  }

  /** `str.strip()` */
  function Strip(s: string): string
  {
    LStrip(RStrip(s))
  }

  /** A string that neither starts nor ends with whitespace is its own strip. */
  lemma StripUnchanged(s: string)
    requires |s| > 0 ==> !IsSpace(s[0]) && !IsSpace(s[|s| - 1])
    ensures Strip(s) == s
  {
  }

  /** A stripped string is left unchanged by a further `rstrip`, which is
      why the templates' own `rstrip` adds nothing after `_convert_record`
      has stripped the question. */
  lemma StripThenRStrip(s: string)
    ensures RStrip(Strip(s)) == Strip(s)
  {
    var t := Strip(s);
    if |t| > 0 {
      var u := RStrip(s);
      assert t == u[|u| - |t|..];
      assert t[|t| - 1] == u[|u| - 1];
    }
  }

  predicate StartsWith(s: string, prefix: string)
  {
    |prefix| <= |s| && s[..|prefix|] == prefix
  }

  /** The articles removed from a label before it is put into a question,
      in the order they are tried. */
  const Articles: seq<string> := ["a ", "an ", "the "]

  /** Tries the prefixes in order and removes the first one the name starts
      with, leaving the name alone when none matches (the article loop at
      grounding/format/detect_multi_formatter.py:44-47). */
  function StripFirstPrefix(name: string, prefixes: seq<string>): (r: string)
    ensures (forall j :: 0 <= j < |prefixes| ==> !StartsWith(name, prefixes[j])) ==> r == name
    ensures (exists j :: 0 <= j < |prefixes| && StartsWith(name, prefixes[j])) ==>
      exists i :: 0 <= i < |prefixes| && StartsWith(name, prefixes[i])
        && (forall j :: 0 <= j < i ==> !StartsWith(name, prefixes[j]))
        && r == name[|prefixes[i]|..]
  {
    if |prefixes| == 0 then name
    else if StartsWith(name, prefixes[0]) then name[|prefixes[0]|..]
    else StripFirstPrefix(name, prefixes[1..])
  }

  /** Removes at most one leading "a ", "an " or "the ". */
  function StripArticle(name: string): string
  {
    StripFirstPrefix(name, Articles)
  }
}
